=== FILE: README.md ===
# tinydi / dimi core in Dafny

A model of the dependency-resolution core of the `tinydi`/`dimi` dependency
injection library, with proofs of what it guarantees.

- **Scopes** (`scopes.dfy`, tinydi/scopes.py). These are the lifetime policies:
  - `Factory` runs its provider on every call.
  - `Singleton` caches the first successful result in one global slot.
  - `Context` caches per ambient context.

  Caches live in an explicit heap. A slot that is absent plays the role of the `_UNSET` sentinel. Every provider invocation is appended to a log. What a provider returns or raises is a parameter of the model, the *world*. It may depend on the number of invocations so far, so impure providers are covered.
- **Dependencies** (`dependency.dfy`, tinydi/dependency.py). This file holds:
  - the dependency node, and its constructor checks: the async check first, then required-parameter completeness;
  - `copy`;
  - the two resolution phases. `_resolve_sync` collapses sync subgraphs to values and keeps async nodes. `_resolve_async` then awaits the async spine;
  - the entry points `call` and `acall`.

  Nodes are immutable values, so the canonical graph is never changed by resolution. The per-resolution working copies of the source become new values. Replacing a binding in a copy (`SetKeyword`) builds a new node, and the original stays as it was.
- **ResolutionFacts** (`resolution_facts.dfy`) proves what the phases guarantee on accepted graphs:
  - which nodes collapse;
  - that providers only ever receive ready values, never a node;
  - that resolution writes only the cache slots of scopes in the graph;
  - that the two resolution phases never change a slot that is already set, so within them a shared `Singleton` or `Context` runs at most once per slot;
  - that `call` on a sync root and `acall` return a cached root's stored value without running its provider again;
  - that on an unset caching root, `call` on a sync root and `acall` run the root's provider once, last, on the resolved keywords, and return its outcome;
  - what a `Factory` root does under `call` and `acall`;
  - that `call` and `acall` hand out no scope identity and write only slots of scopes in the graph, so a scope constructed afterwards still starts unset.
- **ReferenceSemantics** (`reference_semantics.dfy`) is an independent one-pass post-order evaluator. The two-phase engine is proved to compute the same value as this evaluator for an accepted root graph, sync for `call` and async for `acall`, under four further hypotheses, all of them needed:
  - every provider is pure (its result does not depend on how many invocations came before);
  - no provider raises;
  - every node below the root is a `Factory`, so no cached value from an earlier call can stand in for a fresh evaluation;
  - the root's scope caches (`Singleton` or `Context`) and its slot is unset before the call.
- **Scenarios** (`scenarios.dfy`) runs the test graph through the model (`f1`, `f2`, async `f5`, async singleton `f7`) and proves these outcomes:
  - `f7` evaluates to 70;
  - a second call to `f7` reuses the cached 70;
  - a singleton `f2` evaluates to 2;
  - the class `B` receives a fresh `A` and `f = 2`;
  - a diamond of dependencies runs its shared singleton only once;
  - both constructor errors are raised.
- **TypeHints** (`type_hints.dfy`, dimi/_utils.py) covers four things:
  - the decision table that turns each `Annotated` parameter hint into a declared dependency key;
  - the name lookup that defaults to a placeholder type;
  - the placeholder's subscript behaviour;
  - `is_subclass`.
- **StringGenerics** (`string_generics.dfy`, dimi/_utils/py314.py) models the rewrite `Annotated["Cls[int]", ...]` → `Annotated["Cls", ...]`.

Behaviour of the code that the model keeps as written:

- `call` never checks that the graph is sync. On an async `Singleton` or `Context` root it runs the sync part of the graph, does not run the root, and returns and stores the root's un-awaited coroutine object.
- `call` on an async `Singleton` or `Context` root whose slot is already set does not return the stored value. The scope hands back an un-awaited coroutine, and `set_value` overwrites the stored value with it. A later `acall` then returns that coroutine (`Scenarios.CallOverwritesCachedAsyncRoot`).
- `call`/`acall` end with `scope.set_value(result)`. Only `Singleton` and `Context` define that method. On a sync `Factory` root, `call` runs the provider and then raises `AttributeError`; so does `acall` on an async `Factory` root. `call` on an async `Factory` root only makes a coroutine, so it raises `AttributeError` with nothing run and nothing stored.
- `acall` awaits the root's result, so it is modelled only for async roots (a precondition).
- Awaits are sequential, so `Singleton._call` and `Singleton._acall` share one definition.
- The constructor checks sync/async compatibility before completeness.
- A sync `call` on a graph with async parts raises no `InvalidOperation`.

## Model

| member | source | states |
|---|---|---|
| Scopes.NewScope | tinydi/scopes.py:36-38 | a new `Singleton`/`Context` gets a slot that reads as unset in every context; other caches and the log are untouched |
| Scopes.Write | tinydi/scopes.py:56-57 | after a write the slot reads back the value and every other slot is as before |
| Scopes.SetValue | tinydi/dependency.py:63 | raises `AttributeError("set_value")` exactly for a `Factory`; otherwise the value reads back, nothing runs and every other slot is as before |
| Scopes.CachedCall | tinydi/scopes.py:44-54 | hit: the stored value, nothing runs, whatever the arguments; miss: one run with these arguments, stored only on success; other slots untouched |
| Scopes.ScopeCall | tinydi/scopes.py:40-42 | async provider not awaited: a coroutine and nothing runs; `Factory`: runs every time; cached scopes: the cached call; at most one invocation is logged |
| Scopes.EqualScopesKeepSeparateCaches | tinydi/scopes.py:12-13 | scope equality ignores identity, yet writing one scope leaves an equal scope's slot unchanged |
| Scopes.ScopeEqualsIsEquivalence | tinydi/scopes.py:12-13 | `Scope.__eq__` is reflexive, symmetric and transitive |
| Scopes.FactoryRunsOnEveryCall | tinydi/scopes.py:27-29 | two `Factory` calls run the provider twice, each on its own arguments, and touch no cache |
| Scopes.CachedAfterFirstSuccess | tinydi/scopes.py:44-54 | after one success, any later call (sync or awaited, any arguments) returns the same value and runs nothing |
| Scopes.FailureLeavesCacheUnset | tinydi/scopes.py:44-48 | a raising provider leaves the slot unset, so the next call runs it again |
| Scopes.GetAfterSet | tinydi/scopes.py:56-60 | `get_value` after `set_value(v)` is `v`; `None` is a stored value, not unset |
| Scopes.ContextSlotsAreSeparate | tinydi/scopes.py:63-72 | a `Singleton` write is seen in every context; a `Context` write only in its own |
| Scopes.ContextRunsOncePerContext | tinydi/scopes.py:63-72 | a `Context` runs its provider again in a context where it is unset, keeping the first context's value |
| Dependencies.HasAsyncDep | tinydi/dependency.py:18 | true iff some direct binding is an async dependency node |
| Dependencies.Leftovers | tinydi/dependency.py:21-26 | exactly the required parameters (no default) that have no binding |
| Dependencies.MakeNode | tinydi/dependency.py:15-27 | accepted iff (async, or no async binding) and every required parameter is bound; a sync node with an async binding raises that error first; otherwise the error names exactly the missing parameters |
| Dependencies.AsyncBelowIsDirect | tinydi/dependency.py:18-20 | on accepted graphs, the direct-only `has_async_deps` flag equals "some async node anywhere below" |
| Dependencies.ExtraKeywordsAllowed | tinydi/dependency.py:21-27 | binding an extra keyword keeps a node accepted unless it is an async dependency of a sync node |
| Dependencies.CopyNeedsNoRevalidation | tinydi/dependency.py:32-33 | the constructor would accept the copy again with the same flag, so skipping validation loses nothing |
| Dependencies.SetKeyword | tinydi/dependency.py:43 | replaces one binding's value, keeping its name and position and all other bindings |
| Dependencies.ResolveSync | tinydi/dependency.py:39-48 | the log only grows; a kept node keeps the parameter names and literals; the top is always kept; a collapsed node was sync, non-top and had no async bindings |
| Dependencies.SyncLoop | tinydi/dependency.py:41-43 | the loop keeps the node's shape and only extends the log |
| Dependencies.ResolveAsync | tinydi/dependency.py:50-59 | the log only grows; exactly the top stays a node, every other node becomes a value |
| Dependencies.AsyncLoop | tinydi/dependency.py:52-54 | the loop keeps the node's shape and only extends the log |
| Dependencies.Call | tinydi/dependency.py:61-64 | on success the root is a caching scope holding the returned value; on an async root that value is the un-awaited coroutine |
| Dependencies.ACall | tinydi/dependency.py:66-70 | on success the root is a caching scope holding the returned value |
| ResolutionFacts.SyncPhaseShape | tinydi/dependency.py:39-48 | on accepted graphs every non-top sync node collapses to a value; what is kept is async or the top, with only async nodes below, and only values if sync |
| ResolutionFacts.SyncLoopShape | tinydi/dependency.py:41-43 | each binding the loop has passed is resolved: a value, or an async node with only async nodes below |
| ResolutionFacts.AsyncPhaseShape | tinydi/dependency.py:50-59 | after phase two the top holds only values, and every invocation in it received only values |
| ResolutionFacts.AsyncLoopShape | tinydi/dependency.py:52-54 | each async binding the loop has passed is a value, and invocations got only values |
| ResolutionFacts.ParentRunsAfterChildren | tinydi/dependency.py:40-46 | a collapsing sync node first resolves all its bindings to values; then a `Factory` or an unset cached scope runs its provider once, last, on those values, and the node is replaced by that provider's result; a set cached scope runs nothing and yields its stored value |
| ResolutionFacts.ParentRunsAfterChildrenAsync | tinydi/dependency.py:51-57 | the same in phase two for an async node whose bindings below are async: its async bindings are awaited first, then the node itself runs once, last, and is replaced by its awaited result, unless its slot is already set |
| ResolutionFacts.TwoPhasesLeaveOnlyValues | tinydi/dependency.py:67 | after both phases the root's working copy has the root's shape and only values |
| ResolutionFacts.CallPassesOnlyValues | tinydi/dependency.py:61-64 | every provider `call` invokes receives ready values, never a dependency node |
| ResolutionFacts.ACallPassesOnlyValues | tinydi/dependency.py:66-70 | every provider `acall` invokes receives ready values, never a dependency node |
| ResolutionFacts.SyncPhaseFrame | tinydi/dependency.py:39-48 | phase one writes only the slots of scopes in the node (below it, at the top) and keeps no foreign scopes |
| ResolutionFacts.SyncLoopFrame | tinydi/dependency.py:41-43 | the loop writes only slots of scopes below the node |
| ResolutionFacts.AsyncPhaseFrame | tinydi/dependency.py:50-59 | phase two writes only the slots of scopes in the node (below it, at the top) |
| ResolutionFacts.AsyncLoopFrame | tinydi/dependency.py:52-54 | the loop writes only slots of scopes below the node |
| ResolutionFacts.ScopeCallKeepsSet | tinydi/scopes.py:44-54 | a scope call never changes a slot that is already set |
| ResolutionFacts.SyncPhaseKeepsSet | tinydi/dependency.py:39-48 | phase one never changes a slot that is already set, for any graph |
| ResolutionFacts.SyncLoopKeepsSet | tinydi/dependency.py:41-43 | nor does its loop over the bindings |
| ResolutionFacts.AsyncPhaseKeepsSet | tinydi/dependency.py:50-59 | phase two never changes a slot that is already set |
| ResolutionFacts.AsyncLoopKeepsSet | tinydi/dependency.py:52-54 | nor does its loop over the bindings |
| ResolutionFacts.SecondVisitRunsNothing | tinydi/scopes.py:44-48 | a cached sync node whose slot is set, visited again after any other subgraph was resolved, yields the first value and appends nothing beyond its own bindings' runs: a shared cached scope runs at most once per slot |
| ResolutionFacts.CachedRootIsReturned | tinydi/dependency.py:66-70 | `acall` on a cached root returns the stored value and keeps it stored; when both phases succeed the root's provider is not run again: the log and cache are those phase two left |
| ResolutionFacts.CachedSyncRootIsReturned | tinydi/dependency.py:61-64 | `call` on a cached sync root returns the stored value and keeps it stored; when phase one succeeds the root's provider is not run again: the log and cache are those phase one left |
| ResolutionFacts.UnsetSyncRootRunsLast | tinydi/dependency.py:61-64 | `call` on an unset sync caching root not shared below: the root's provider runs once, after phase one, on phase one's keywords, and `call` returns exactly its outcome |
| ResolutionFacts.UnsetRootRunsLast | tinydi/dependency.py:66-70 | `acall` on an unset caching root not shared below: the root's provider is awaited once, after both phases, on phase two's keywords, and `acall` returns exactly its outcome |
| ResolutionFacts.SyncFactoryRootRunsThenRaises | tinydi/dependency.py:61-63 | `call` on any sync `Factory` root: after phase one the provider runs once, last, on phase one's keywords; nothing is stored; the outcome is `AttributeError`, or the provider's own exception |
| ResolutionFacts.AsyncFactoryRootCallRunsNothing | tinydi/dependency.py:61-63 | `call` on an async `Factory` root: after phase one nothing more runs or is stored, and `AttributeError` is raised |
| ResolutionFacts.AsyncFactoryRootACallRunsThenRaises | tinydi/dependency.py:66-69 | `acall` on an async `Factory` root: after both phases the provider is awaited once, last, on phase two's keywords; nothing is stored; the outcome is `AttributeError`, or the provider's own exception |
| ResolutionFacts.SyncPhaseKeepsValid | tinydi/scopes.py:36-38 | phase one on a graph of already constructed scopes hands out no identity and writes only their slots, so every slot in use still belongs to an existing scope |
| ResolutionFacts.CallKeepsValid | tinydi/dependency.py:61-64 | the same for `call`, so a scope constructed after it still reads as unset |
| ResolutionFacts.ACallKeepsValid | tinydi/dependency.py:66-70 | the same for `acall` |
| ReferenceSemantics.SyncPhaseAgrees | tinydi/dependency.py:39-48 | a value from phase one is the reference value; a kept node has the reference arguments; no cache changes |
| ReferenceSemantics.SyncLoopAgrees | tinydi/dependency.py:41-43 | the loop's working copy has the reference arguments |
| ReferenceSemantics.AsyncPhaseAgrees | tinydi/dependency.py:50-59 | a non-top node's awaited value is the reference value; the top ends with the reference arguments |
| ReferenceSemantics.AsyncLoopAgrees | tinydi/dependency.py:52-54 | the loop's working copy ends with the reference arguments |
| ReferenceSemantics.CallMatchesReference | tinydi/dependency.py:61-64 | `call` on an unset sync caching root returns the reference value |
| ReferenceSemantics.ACallMatchesReference | tinydi/dependency.py:66-70 | `acall` on an unset async caching root returns the reference value: the sync-first split changes nothing |
| ReferenceSemantics.FactoryRootCallRaisesAfterRunning | tinydi/dependency.py:61-64 | `call` on an accepted sync `Factory` root over an all-`Factory` graph, with pure providers that never raise, runs it last on the reference arguments, then raises `AttributeError` |
| Scenarios.SyncF1 | tests/test_di.py:13-15 | `f1` collapses to 1, logged once |
| Scenarios.SyncF2 | tests/test_di.py:17-19 | `f2` collapses to 2 after `f1` |
| Scenarios.SyncF5 | tests/test_di.py:21-23 | async `f5` is kept with `f = 2` filled in |
| Scenarios.SyncF7 | tests/test_di.py:25-27 | the top `f7` keeps `f5` as its binding |
| Scenarios.AsyncPhaseBelowF7 | tests/test_di.py:21-27 | `f5` is awaited on 2, giving 10 |
| Scenarios.AcallF7 | tests/test_di.py:95-97 | `acall(f7)` is 70, runs `f1`, `f2`, `f5`, `f7` in that order and stores 70 |
| Scenarios.AcallF7Again | tests/test_di.py:95-97 | a second `acall(f7)` is 70 and does not run `f7` again |
| Scenarios.CallSingletonF2 | tests/test_di.py:81-83 | `call(f2)` is 2 and stores it |
| Scenarios.CallClassB | tests/test_di.py:88-92 | `call(B)` runs `A`, `f1`, `f2`, then `B` with a fresh `A` and `f = 2`, and stores the new `B` |
| Scenarios.SyncOnAsyncRejected | tinydi/dependency.py:19-20 | sync `f2` bound to async `f5` is rejected |
| Scenarios.MissingParamRejected | tinydi/dependency.py:26-27 | `f2` with `f` unbound is rejected naming `{"f"}` |
| Scenarios.CallOnAsyncRootStoresCoroutine | tinydi/dependency.py:61-64 | `call(f7)` runs only `f1`, `f2` and stores and returns `f7`'s coroutine |
| Scenarios.CallOverwritesCachedAsyncRoot | tinydi/dependency.py:61-64 | after `acall(f7)` stored 70, `call(f7)` stores and returns `f7`'s coroutine instead, and a later `acall(f7)` returns that coroutine |
| Scenarios.SyncSharedUnset | tinydi/scopes.py:44-48 | an unset singleton runs and stores its value |
| Scenarios.SyncSharedSet | tinydi/scopes.py:44-48 | a set singleton returns its value and runs nothing |
| Scenarios.SyncA | tinydi/dependency.py:41-45 | `a` runs on the singleton's value |
| Scenarios.SyncB | tinydi/dependency.py:41-45 | `b` runs on the singleton's stored value without rerunning it |
| Scenarios.SyncRoot | tinydi/dependency.py:39-48 | phase one on `r` resolves `a`, then `b`, and keeps `r` with both values |
| Scenarios.DiamondRunsSharedSingletonOnce | tinydi/scopes.py:44-48 | in `r(a(s), b(s))` the singleton `s` is invoked exactly once |
| TypeHints.PlaceholderTest | dimi/_utils.py:56-57 | `is_subclass(t, _BaseUnknownType)` holds exactly for placeholder types, and is false for non-types instead of raising |
| TypeHints.EntryKey | dimi/_utils.py:42-53 | yields iff not `return` and `Annotated`; string metadata verbatim; `...` becomes the placeholder's name, the generic's origin or the type; other metadata as is |
| TypeHints.Collect | dimi/_utils.py:42-53 | every output pair comes from some hint, and every yielding hint is in the output |
| TypeHints.ClassDeclaresAsItsInit | dimi/_utils.py:36-39 | a class declares what its `__init__` declares as a function; a class whose `__init__` is not a plain function declares nothing, whatever its hints |
| TypeHints.CollectKeepsOrder | dimi/_utils.py:42 | output order follows hint order (collecting a concatenation concatenates) |
| TypeHints.ReturnNeverYielded | dimi/_utils.py:43-44 | the `return` hint never yields |
| TypeHints.CollectOne | dimi/_utils.py:42-53 | a single hint yields exactly its entry key or nothing |
| TypeHints.EllipsisNeverYieldsPlaceholder | dimi/_utils.py:49-52 | a key made from `...` is never a placeholder type |
| TypeHints.MissingNameSubscripted | dimi/_utils.py:9-25 | a missing name, subscripted, evaluates to its own name string |
| TypeHints.EllipsisOnMissingNameIsByName | dimi/_utils.py:45-52 | `Annotated[Missing, ...]` declares the same key as string metadata `"Missing"` |
| StringGenerics.BeforeBracket | dimi/_utils/py314.py:18 | a prefix of the string with no `[`, ending at the first `[` or at the end |
| StringGenerics.DropOne | dimi/_utils/py314.py:11-19 | only an `Annotated` forward ref ending in `]` changes, to the part before `[`, metadata kept in order |
| StringGenerics.DropStringGenerics | dimi/_utils/py314.py:9-20 | a copy with the same keys in the same order, each value rewritten by one entry rewrite |
| StringGenerics.BeforeBracketOfPlainName | dimi/_utils/py314.py:18 | a name without `[` is unchanged |
| StringGenerics.DropOneIdempotent | dimi/_utils/py314.py:17-19 | rewriting an entry twice equals rewriting it once |
| StringGenerics.DropStringGenericsIdempotent | dimi/_utils/py314.py:9-20 | the whole rewrite is idempotent |
| StringGenerics.DropsGenericPart | dimi/_utils/py314.py:5-7 | `Annotated["Cls[int]", m]` becomes `Annotated["Cls", m]` |

Some functions of the source are modelled by helpers that no row names, because their contracts only say how they compute; the lemmas above state what they mean:
`Dependencies.Copy` (tinydi/dependency.py:32-33), `Scopes.GetValue` (tinydi/scopes.py:59-60 and 68-69), `Scopes.ScopeEquals` (tinydi/scopes.py:12-13), `TypeHints.DefaultLookup` (dimi/_utils.py:23-26), `TypeHints.UnknownGetItem` (dimi/_utils.py:9-13), `TypeHints.IsSubclass` (dimi/_utils.py:56-57) and `TypeHints.DeclaredDependencies` (dimi/_utils.py:29-39).

## Left out

- The container that builds and registers nodes is not part of this model: `__setitem__`, `inject`, `override`, `UnknownDependency`/`InvalidOperation`, and the default scope class. tinydi/integrations.py and the test fixtures are not part of this model either.
- `inspect.signature` is not modelled. A provider's parameters are given as data: name and whether it has a default.
- `typing.get_type_hints` is not modelled. Its evaluation of annotation strings is taken as input, in the form of already-evaluated hints.
- `is_subclass` with a tuple second argument, and user classes deriving from the placeholder base, are not modelled.
- `_DefaultTypeDict` compares against its absent marker with `==`. A stored value with a custom `__eq__` that equals that marker is not modelled.
- The `not args` branch of `get_declared_dependencies` is not modelled. `typing.Annotated` refuses fewer than two arguments, so that branch cannot be reached.
- Concurrency is not modelled: no interleaving of tasks between awaits, and no threads racing on a singleton's first call. Awaits run in sequence.
- Context inheritance between nested `ContextVar` contexts is not modelled. A context is an opaque identity.
- `__repr__`, `__slots__` and the text of exception messages are not modelled.
- Keyword maps are ordered sequences of bindings. Python's uniqueness of keys is not imposed.
- Dependencies.ACall: requires an async root. On a sync root the source would raise a `TypeError` when it awaits a plain value, and that error is not modelled.
- ReferenceSemantics.CallMatchesReference: holds only for providers that are pure and never raise, and for graphs whose nodes below the root are all `Factory`s. With impure providers, or cached values from earlier inputs, the source need not agree with one-pass evaluation.
- ReferenceSemantics.ACallMatchesReference: holds under the same restrictions as `CallMatchesReference`.
- TypeHints.SubclassOf: models no inheritance between ordinary classes. `Named(n)` matches only the class named `n` itself; the library only ever asks about the placeholder base, where the model is exact.
- ReferenceSemantics.FactoryRootCallRaisesAfterRunning: holds only for an accepted sync root over an all-`Factory` graph with pure providers that never raise, because it names the reference arguments; `SyncFactoryRootRunsThenRaises` and `AsyncFactoryRootCallRunsNothing` state the `Factory`-root behaviour without these hypotheses.
- Cyclic dependency graphs cannot be represented: a node is a finite tree value. On a cycle the source's recursion in `_resolve_sync` never ends and fails with `RecursionError`.
- Scopes.Provider: providers are compared by name, async flag and parameters. Python compares functions by identity, so two distinct functions with the same name and signature would be two providers there. In the model they are one provider with one behaviour in the world.
- ResolutionFacts.UnsetRootRunsLast and ResolutionFacts.UnsetSyncRootRunsLast: assume the root's scope object does not also occur below the root. If it did, the node below would fill the slot first, and the root would return that value (the set-slot case of `CachedRootIsReturned`).
- Scopes.Val: two un-awaited coroutines of the same provider are equal values in the model. Python creates a distinct coroutine object on every call, and such an object compares equal only to itself.

=== FILE: dependency.dfy ===
/** The dependency node and the two-phase resolution engine of
    tinydi/dependency.py.

    A node pairs a scope with an ordered keyword map whose values are
    literals or further nodes. Python resolves on `copy()`s so that the
    canonical nodes are never mutated; here nodes are immutable values, so
    that holds by construction and a copy is the same value. Resolution
    threads the heap of caches and the invocation log through the walk. */
module Dependencies {
  import opened Errors
  import opened Scopes

  /** A keyword value: a ready value or another dependency node. */
  datatype Bound = Lit(v: Val) | Dep(node: Node)

  datatype Binding = Binding(name: string, value: Bound)

  /** `Dependency(scope, keywords, has_async_deps)`. */
  datatype Node = Node(scope: Scope, keywords: seq<Binding>, hasAsyncDeps: bool)
  {
    predicate IsAsync() {
      scope.IsAsync()
    }
  }

  type Kwargs = seq<Binding>
  type Env = World<Kwargs>
  type State = Heap<Kwargs>

  predicate IsAsyncDep(b: Bound) {
    b.Dep? && b.node.IsAsync()
  }

  /** The scan that computes `has_async_deps`: direct bindings only. */
  function HasAsyncDep(kws: seq<Binding>): (r: bool)
    ensures r <==> exists j :: 0 <= j < |kws| && IsAsyncDep(kws[j].value)
  {
    if |kws| == 0 then false
    else if IsAsyncDep(kws[0].value) then true
    else
      var rest := HasAsyncDep(kws[1..]);
      assert forall j :: 1 <= j < |kws| ==> kws[j] == kws[1..][j - 1];
      rest
  }

  function Names(kws: seq<Binding>): (r: set<string>)
    ensures forall x :: x in r <==> exists j :: 0 <= j < |kws| && kws[j].name == x
  {
    set j | 0 <= j < |kws| :: kws[j].name
  }

  /** Required parameters (those without a default) that no keyword binds. */
  function Leftovers(params: seq<Param>, kws: seq<Binding>): (r: set<string>)
    ensures forall x :: x in r <==> exists p :: p in params && !p.hasDefault && p.name == x && x !in Names(kws)
  {
    set p | p in params && !p.hasDefault && p.name !in Names(kws) :: p.name
  }

  /** `Dependency.__post_init__`: the async check comes first, then the
      completeness check; extra keywords are accepted. */
  function MakeNode(s: Scope, kws: seq<Binding>): (r: Outcome<Node>)
    ensures r.Done? <==>
      && (s.IsAsync() || forall j :: 0 <= j < |kws| ==> !IsAsyncDep(kws[j].value))
      && (forall p :: p in s.func.params && !p.hasDefault ==> exists j :: 0 <= j < |kws| && kws[j].name == p.name)
    ensures r.Done? ==> r.value.scope == s && r.value.keywords == kws
    ensures r.Done? ==> (r.value.hasAsyncDeps <==> exists j :: 0 <= j < |kws| && IsAsyncDep(kws[j].value))
    ensures !s.IsAsync() && (exists j :: 0 <= j < |kws| && IsAsyncDep(kws[j].value)) ==>
      r == Raise(InvalidDependency(SyncWithAsyncDep))
    ensures r.Raise? && r.exc != InvalidDependency(SyncWithAsyncDep) ==>
      r.exc.InvalidDependency? && r.exc.reason.UndefinedParams? && r.exc.reason.missing != {}
      && forall x :: x in r.exc.reason.missing <==>
           exists p :: p in s.func.params && !p.hasDefault && p.name == x && x !in Names(kws)
  {
    var hasAsync := HasAsyncDep(kws);
    if !s.IsAsync() && hasAsync then
      Raise(InvalidDependency(SyncWithAsyncDep))
    else
      var left := Leftovers(s.func.params, kws);
      if left != {} then
        Raise(InvalidDependency(UndefinedParams(left)))
      else
        assert forall p :: p in s.func.params && !p.hasDefault ==> p.name in Names(kws) by {
          forall p | p in s.func.params && !p.hasDefault ensures p.name in Names(kws) {
            assert p.name !in left;
          }
        }
        Done(Node(s, kws, hasAsync))
  }

  /** A node as the registry builds it: accepted by the constructor, and so
      is every node below it. */
  predicate WellFormed(n: Node)
    decreases n
  {
    && MakeNode(n.scope, n.keywords) == Done(n)
    && forall j :: 0 <= j < |n.keywords| && n.keywords[j].value.Dep? ==> WellFormed(n.keywords[j].value.node)
  }

  /** Some node below `n`, however deep, is async. */
  predicate SomeAsyncBelow(n: Node)
    decreases n
  {
    exists j :: 0 <= j < |n.keywords| && n.keywords[j].value.Dep?
      && (n.keywords[j].value.node.IsAsync() || SomeAsyncBelow(n.keywords[j].value.node))
  }

  /** `has_async_deps` looks at direct bindings only, but on accepted
      graphs that is enough: since a sync node may not depend on an async
      one, an async node anywhere below shows up as an async direct binding. */
  lemma {:induction false} AsyncBelowIsDirect(n: Node)
    requires WellFormed(n)
    ensures n.hasAsyncDeps <==> SomeAsyncBelow(n)
    decreases n
  {
    forall j | 0 <= j < |n.keywords| && n.keywords[j].value.Dep? && !n.keywords[j].value.node.IsAsync()
      ensures !SomeAsyncBelow(n.keywords[j].value.node)
    {
      AsyncBelowIsDirect(n.keywords[j].value.node);
    }
  }

  /** Binding one more keyword, even one the provider does not declare,
      keeps an accepted node accepted, unless it is an async dependency of
      a sync provider. */
  lemma ExtraKeywordsAllowed(s: Scope, kws: seq<Binding>, extra: Binding)
    requires MakeNode(s, kws).Done?
    requires s.IsAsync() || !IsAsyncDep(extra.value)
    ensures MakeNode(s, kws + [extra]).Done?
  {
    var kws' := kws + [extra];
    assert forall j :: 0 <= j < |kws| ==> kws'[j] == kws[j];
    assert Names(kws) <= Names(kws');
  }

  /** `Dependency.copy`: same scope object (so the same cache slot), an
      equal keyword map, the flag carried over and no re-validation. */
  function Copy(n: Node): (c: Node)
    ensures c.scope == n.scope && c.keywords == n.keywords && c.hasAsyncDeps == n.hasAsyncDeps
  {
    Node(n.scope, n.keywords, n.hasAsyncDeps)
  }

  /** The constructor would accept a copy again, with the same flag, so
      skipping re-validation in `copy` loses nothing. */
  lemma CopyNeedsNoRevalidation(n: Node)
    requires WellFormed(n)
    ensures MakeNode(Copy(n).scope, Copy(n).keywords) == Done(Copy(n))
    ensures WellFormed(Copy(n))
  {
  }

  /** `dependency.keywords[param] = value` for the `j`-th parameter: the
      name and position stay, only the value changes. */
  function SetKeyword(m: Node, j: nat, b: Bound): (r: Node)
    requires j < |m.keywords|
    ensures r.scope == m.scope && r.hasAsyncDeps == m.hasAsyncDeps && |r.keywords| == |m.keywords|
    ensures r.keywords[j] == Binding(m.keywords[j].name, b)
    ensures forall i :: 0 <= i < |m.keywords| && i != j ==> r.keywords[i] == m.keywords[i]
  {
    m.(keywords := m.keywords[j := Binding(m.keywords[j].name, b)])
  }

  /** `m` is `d` with some dependency bindings replaced: same scope, flag,
      parameter names in the same order, and the literal bindings as they were. */
  predicate SameShape(d: Node, m: Node) {
    && m.scope == d.scope
    && m.hasAsyncDeps == d.hasAsyncDeps
    && |m.keywords| == |d.keywords|
    && forall i :: 0 <= i < |d.keywords| ==>
         && m.keywords[i].name == d.keywords[i].name
         && (d.keywords[i].value.Lit? ==> m.keywords[i] == d.keywords[i])
  }

  ghost predicate LogExtends(old_log: seq<Invocation<Kwargs>>, new_log: seq<Invocation<Kwargs>>) {
    |old_log| <= |new_log| && new_log[..|old_log|] == old_log
  }

  // ----- phase one: `_resolve_sync` -----

  /** The inner `dfs` of `_resolve_sync` on the working copy `d`: resolve
      every dependency binding on a copy of it, in keyword order, then run
      `d`'s own provider if it is sync, has no async bindings and is not the
      top; otherwise keep the (partly resolved) node for the async phase. */
  function ResolveSync(d: Node, top: bool, ctx: Ctx, w: Env, h: State): (r: Step<Kwargs, Bound>)
    ensures LogExtends(h.log, r.heap.log)
    ensures r.heap.nextId == h.nextId
    ensures r.out.Done? && r.out.value.Dep? ==> SameShape(d, r.out.value.node)
    ensures top && r.out.Done? ==> r.out.value.Dep?
    ensures r.out.Done? && r.out.value.Lit? ==> !top && !d.IsAsync() && !d.hasAsyncDeps
    decreases d, 1
  {
    var s := SyncLoop(d, d, 0, ctx, w, h);
    match s.out
    case Raise(e) => Step(Raise(e), s.heap)
    case Done(m) =>
      if !m.IsAsync() && !m.hasAsyncDeps && !top then
        var c := ScopeCall(m.scope, m.keywords, false, ctx, w, s.heap);
        Step(if c.out.Done? then Done(Lit(c.out.value)) else Raise(c.out.exc), c.heap)
      else
        Step(Done(Dep(m)), s.heap)
  }

  /** The `for` loop of that `dfs`, from keyword `j` on; `m` is the working
      copy with the bindings before `j` already replaced. */
  function SyncLoop(d: Node, m: Node, j: nat, ctx: Ctx, w: Env, h: State): (r: Step<Kwargs, Node>)
    requires j <= |d.keywords|
    requires SameShape(d, m)
    requires m.keywords[j..] == d.keywords[j..]
    ensures LogExtends(h.log, r.heap.log)
    ensures r.heap.nextId == h.nextId
    ensures r.out.Done? ==> SameShape(d, r.out.value)
    decreases d, 0, |d.keywords| - j
  {
    if j == |d.keywords| then
      Step(Done(m), h)
    else
      assert m.keywords[j] == d.keywords[j] by {
        assert m.keywords[j..][0] == d.keywords[j..][0];
      }
      match m.keywords[j].value
      case Lit(_) =>
        SyncLoop(d, m, j + 1, ctx, w, h)
      case Dep(child) =>
        var c := ResolveSync(Copy(child), false, ctx, w, h);
        match c.out
        case Raise(e) => Step(Raise(e), c.heap)
        case Done(b) =>
          var m' := SetKeyword(m, j, b);
          assert m'.keywords[j + 1..] == d.keywords[j + 1..] by {
            assert forall i :: j + 1 <= i < |d.keywords| ==> m'.keywords[i] == m.keywords[i];
            assert forall i :: j + 1 <= i < |d.keywords| ==> m.keywords[i] == m.keywords[j..][i - j];
          }
          SyncLoop(d, m', j + 1, ctx, w, c.heap)
  }

  // ----- phase two: `_resolve_async` -----

  /** The inner `dfs` of `_resolve_async`: await every async dependency
      binding in keyword order (no copy: these nodes are already the
      working copies of phase one), then, unless at the top, await `d`'s
      own provider. */
  function ResolveAsync(d: Node, top: bool, ctx: Ctx, w: Env, h: State): (r: Step<Kwargs, Bound>)
    requires top || d.IsAsync()
    ensures LogExtends(h.log, r.heap.log)
    ensures r.heap.nextId == h.nextId
    ensures r.out.Done? ==> (top <==> r.out.value.Dep?)
    ensures r.out.Done? && r.out.value.Dep? ==> SameShape(d, r.out.value.node)
    decreases d, 1
  {
    var s := AsyncLoop(d, d, 0, ctx, w, h);
    match s.out
    case Raise(e) => Step(Raise(e), s.heap)
    case Done(m) =>
      if !top then
        var c := ScopeCall(m.scope, m.keywords, true, ctx, w, s.heap);
        Step(if c.out.Done? then Done(Lit(c.out.value)) else Raise(c.out.exc), c.heap)
      else
        Step(Done(Dep(m)), s.heap)
  }

  function AsyncLoop(d: Node, m: Node, j: nat, ctx: Ctx, w: Env, h: State): (r: Step<Kwargs, Node>)
    requires j <= |d.keywords|
    requires SameShape(d, m)
    requires m.keywords[j..] == d.keywords[j..]
    ensures LogExtends(h.log, r.heap.log)
    ensures r.heap.nextId == h.nextId
    ensures r.out.Done? ==> SameShape(d, r.out.value)
    decreases d, 0, |d.keywords| - j
  {
    if j == |d.keywords| then
      Step(Done(m), h)
    else
      assert m.keywords[j] == d.keywords[j] by {
        assert m.keywords[j..][0] == d.keywords[j..][0];
      }
      var b := m.keywords[j].value;
      if b.Dep? && b.node.IsAsync() then
        var c := ResolveAsync(b.node, false, ctx, w, h);
        match c.out
        case Raise(e) => Step(Raise(e), c.heap)
        case Done(v) =>
          var m' := SetKeyword(m, j, v);
          assert m'.keywords[j + 1..] == d.keywords[j + 1..] by {
            assert forall i :: j + 1 <= i < |d.keywords| ==> m'.keywords[i] == m.keywords[i];
            assert forall i :: j + 1 <= i < |d.keywords| ==> m.keywords[i] == m.keywords[j..][i - j];
          }
          AsyncLoop(d, m', j + 1, ctx, w, c.heap)
      else
        AsyncLoop(d, m, j + 1, ctx, w, h)
  }

  // ----- entry points -----

  /** `Dependency.call`: phase one on a copy, then `scope(**keywords)` on
      the result, then `set_value` on the canonical scope. Nothing checks
      that the graph is sync: on an async root the provider is not run and
      its coroutine object is what gets returned and stored. */
  function Call(root: Node, ctx: Ctx, w: Env, h: State): (r: Step<Kwargs, Val>)
    ensures LogExtends(h.log, r.heap.log)
    ensures r.heap.nextId == h.nextId
    ensures r.out.Done? ==> root.scope.HasCache() && GetValue(root.scope, ctx, r.heap) == Hit(r.out.value)
    ensures root.IsAsync() && r.out.Done? ==> r.out.value == Coroutine(root.scope.func)
  {
    var s := ResolveSync(Copy(root), true, ctx, w, h);
    match s.out
    case Raise(e) => Step(Raise(e), s.heap)
    case Done(b) =>
      var m := b.node;
      var c := ScopeCall(m.scope, m.keywords, false, ctx, w, s.heap);
      match c.out
      case Raise(e) => c
      case Done(v) =>
        match SetValue(root.scope, v, ctx, c.heap)
        case Raise(e) => Step(Raise(e), c.heap)
        case Done(h') => Step(Done(v), h')
  }

  /** `Dependency.acall`: phase one, phase two on its result, then await
      the root's provider on the now literal keywords, then `set_value`.
      Awaiting a sync root's result would fail, so the root is async. */
  function ACall(root: Node, ctx: Ctx, w: Env, h: State): (r: Step<Kwargs, Val>)
    requires root.IsAsync()
    ensures LogExtends(h.log, r.heap.log)
    ensures r.heap.nextId == h.nextId
    ensures r.out.Done? ==> root.scope.HasCache() && GetValue(root.scope, ctx, r.heap) == Hit(r.out.value)
  {
    var s := ResolveSync(Copy(root), true, ctx, w, h);
    match s.out
    case Raise(e) => Step(Raise(e), s.heap)
    case Done(b) =>
      var a := ResolveAsync(b.node, true, ctx, w, s.heap);
      match a.out
      case Raise(e) => Step(Raise(e), a.heap)
      case Done(b') =>
        var m := b'.node;
        var c := ScopeCall(m.scope, m.keywords, true, ctx, w, a.heap);
        match c.out
        case Raise(e) => c
        case Done(v) =>
          match SetValue(root.scope, v, ctx, c.heap)
          case Raise(e) => Step(Raise(e), c.heap)
          case Done(h') => Step(Done(v), h')
  }
}

=== FILE: errors.dfy ===
/** Exceptions the resolution engine raises or lets through, and the
    outcome of a Python call: it either returns a value or raises. */
module Errors {

  /** Why `Dependency.__post_init__` rejected a node. */
  datatype Reason =
    | SyncWithAsyncDep                     // a sync provider bound to an async dependency
    | UndefinedParams(missing: set<string>)  // required parameters left unbound

  datatype Exc =
    | InvalidDependency(reason: Reason)
    | AttributeError(attr: string)         // e.g. `set_value` looked up on a Factory
    | ProviderError(code: int)             // whatever a user-supplied provider raises

  /** A call either returns a value or raises an exception. */
  datatype Outcome<+T> = Done(value: T) | Raise(exc: Exc)
}

=== FILE: reference_semantics.dfy ===
/** An independent, one-pass reference for what resolution computes, and
    the proof that the two-phase engine of tinydi/dependency.py agrees with
    it. The reference evaluates a node by evaluating every dependency
    binding first, in keyword order, and then its provider; it has no
    phases, no caches and no sync/async distinction. Agreement needs
    providers whose result depends only on their arguments and never
    raise, and graphs whose nodes below the root are `Factory`s (so no
    cache can hand back a value computed from other inputs). */
module ReferenceSemantics {
  import opened Errors
  import opened Scopes
  import opened Dependencies
  import opened ResolutionFacts

  /** Providers are functions of their arguments alone. */
  ghost predicate Pure(w: Env) {
    forall p, k, t :: w(p, k, t) == w(p, k, 0)
  }

  /** Providers never raise. */
  ghost predicate Total(w: Env) {
    forall p, k, t :: w(p, k, t).Done?
  }

  /** The value of `n` by one-pass post-order evaluation. */
  function Naive(w: Env, n: Node): Val
    requires Total(w)
    decreases n, 2
  {
    w(n.scope.func, NaiveArgs(w, n), 0).value
  }

  /** The keywords of `n` with every dependency replaced by its value. */
  function NaiveArgs(w: Env, n: Node): (r: seq<Binding>)
    requires Total(w)
    ensures |r| == |n.keywords|
    ensures forall j :: 0 <= j < |n.keywords| ==> r[j] == EvalBinding(w, n, j)
    decreases n, 1
  {
    seq(|n.keywords|, j requires 0 <= j < |n.keywords| => EvalBinding(w, n, j))
  }

  function EvalBinding(w: Env, n: Node, j: nat): Binding
    requires Total(w)
    requires j < |n.keywords|
    decreases n, 0
  {
    var b := n.keywords[j];
    match b.value
    case Lit(v) => b
    case Dep(c) => Binding(b.name, Lit(Naive(w, c)))
  }

  predicate AllFactory(n: Node)
    decreases n
  {
    && n.scope.Factory?
    && forall j :: 0 <= j < |n.keywords| && n.keywords[j].value.Dep? ==> AllFactory(n.keywords[j].value.node)
  }

  /** Every node strictly below `n` is a `Factory`. */
  predicate FactoriesBelow(n: Node) {
    forall j :: 0 <= j < |n.keywords| && n.keywords[j].value.Dep? ==> AllFactory(n.keywords[j].value.node)
  }

  lemma LiteralArgsAreTheirValues(w: Env, m: Node)
    requires Total(w)
    requires AllLiteral(m.keywords)
    ensures NaiveArgs(w, m) == m.keywords
  {
  }

  /** Phase one agrees with the reference: a collapsed node has the
      reference value, a kept node has the reference arguments; only the
      log changed. */
  lemma {:induction false} SyncPhaseAgrees(d: Node, top: bool, ctx: Ctx, w: Env, h: State)
    requires Pure(w) && Total(w)
    requires WellFormed(d) && FactoriesBelow(d)
    requires !top ==> d.scope.Factory?
    ensures
      var r := ResolveSync(d, top, ctx, w, h);
      && r.out.Done?
      && r.heap.cache == h.cache
      && (r.out.value.Lit? ==> r.out.value.v == Naive(w, d))
      && (r.out.value.Dep? ==>
            && NaiveArgs(w, r.out.value.node) == NaiveArgs(w, d)
            && FactoriesBelow(r.out.value.node))
    decreases d, 1
  {
    WellFormedFacts(d);
    var s := SyncLoop(d, d, 0, ctx, w, h);
    SyncLoopAgrees(d, d, 0, ctx, w, h);
    SyncLoopShape(d, d, 0, ctx, w, h);
    var m := s.out.value;
    if !m.IsAsync() && !m.hasAsyncDeps && !top {
      assert AllLiteral(m.keywords);
      LiteralArgsAreTheirValues(w, m);
      assert m.keywords == NaiveArgs(w, d);
    }
  }

  lemma {:induction false} SyncLoopAgrees(d: Node, m: Node, j: nat, ctx: Ctx, w: Env, h: State)
    requires Pure(w) && Total(w)
    requires WellFormed(d) && FactoriesBelow(d)
    requires j <= |d.keywords|
    requires SameShape(d, m) && FactoriesBelow(m)
    requires m.keywords[j..] == d.keywords[j..]
    requires forall i :: 0 <= i < j ==> EvalBinding(w, m, i) == EvalBinding(w, d, i)
    ensures
      var r := SyncLoop(d, m, j, ctx, w, h);
      && r.out.Done?
      && r.heap.cache == h.cache
      && NaiveArgs(w, r.out.value) == NaiveArgs(w, d)
      && FactoriesBelow(r.out.value)
    decreases d, 0, |d.keywords| - j
  {
    if j == |d.keywords| {
      assert NaiveArgs(w, m) == NaiveArgs(w, d);
    } else {
      WellFormedFacts(d);
      assert m.keywords[j] == d.keywords[j] by {
        assert m.keywords[j..][0] == d.keywords[j..][0];
      }
      assert forall i :: j < i < |d.keywords| ==> m.keywords[i] == d.keywords[i] by {
        assert forall i :: j < i < |d.keywords| ==> m.keywords[i] == m.keywords[j..][i - j];
      }
      match m.keywords[j].value
      case Lit(_) =>
        SyncLoopAgrees(d, m, j + 1, ctx, w, h);
      case Dep(child) =>
        var c := ResolveSync(Copy(child), false, ctx, w, h);
        SyncPhaseAgrees(Copy(child), false, ctx, w, h);
        SyncStepAgrees(w, d, m, j, child, c.out.value);
        SyncLoopAgrees(d, SetKeyword(m, j, c.out.value), j + 1, ctx, w, c.heap);
    }
  }

  /** One step of the phase-one loop: replacing dependency binding `j` by
      what phase one made of the child keeps the working copy in agreement
      with the reference up to and including `j`. */
  lemma SyncStepAgrees(w: Env, d: Node, m: Node, j: nat, child: Node, b: Bound)
    requires Total(w)
    requires j < |d.keywords| && SameShape(d, m) && FactoriesBelow(m)
    requires m.keywords[j..] == d.keywords[j..]
    requires m.keywords[j] == d.keywords[j] && d.keywords[j].value == Dep(child)
    requires forall i :: 0 <= i < j ==> EvalBinding(w, m, i) == EvalBinding(w, d, i)
    requires b.Lit? ==> b.v == Naive(w, child)
    requires b.Dep? ==> NaiveArgs(w, b.node) == NaiveArgs(w, child) && FactoriesBelow(b.node) && SameShape(child, b.node)
    ensures
      var m' := SetKeyword(m, j, b);
      && SameShape(d, m') && FactoriesBelow(m')
      && m'.keywords[j + 1..] == d.keywords[j + 1..]
      && forall i :: 0 <= i < j + 1 ==> EvalBinding(w, m', i) == EvalBinding(w, d, i)
  {
  }

  /** Phase two agrees with the reference: a non-top node's value is the
      reference value, and the top is left with the reference arguments. */
  lemma {:induction false} AsyncPhaseAgrees(d: Node, top: bool, ctx: Ctx, w: Env, h: State)
    requires Pure(w) && Total(w)
    requires OnlyAsyncDeps(d) && FactoriesBelow(d)
    requires !top ==> d.scope.Factory? && d.IsAsync()
    ensures
      var r := ResolveAsync(d, top, ctx, w, h);
      && r.out.Done?
      && r.heap.cache == h.cache
      && (!top ==> r.out.value == Lit(Naive(w, d)))
      && (top ==> r.out.value.node.keywords == NaiveArgs(w, d))
    decreases d, 1
  {
    AsyncLoopAgrees(d, d, 0, ctx, w, h);
  }

  lemma {:induction false} AsyncLoopAgrees(d: Node, m: Node, j: nat, ctx: Ctx, w: Env, h: State)
    requires Pure(w) && Total(w)
    requires OnlyAsyncDeps(d) && FactoriesBelow(d)
    requires j <= |d.keywords|
    requires SameShape(d, m)
    requires m.keywords[j..] == d.keywords[j..]
    requires forall i :: 0 <= i < j ==> m.keywords[i] == EvalBinding(w, d, i)
    ensures
      var r := AsyncLoop(d, m, j, ctx, w, h);
      && r.out.Done?
      && r.heap.cache == h.cache
      && r.out.value.keywords == NaiveArgs(w, d)
    decreases d, 0, |d.keywords| - j
  {
    if j == |d.keywords| {
      assert m.keywords == NaiveArgs(w, d);
    } else {
      assert m.keywords[j] == d.keywords[j] by {
        assert m.keywords[j..][0] == d.keywords[j..][0];
      }
      var b := m.keywords[j].value;
      if b.Dep? && b.node.IsAsync() {
        var c := ResolveAsync(b.node, false, ctx, w, h);
        AsyncPhaseAgrees(b.node, false, ctx, w, h);
        var m' := SetKeyword(m, j, c.out.value);
        assert m'.keywords[j + 1..] == d.keywords[j + 1..] by {
          assert forall i :: j + 1 <= i < |d.keywords| ==> m'.keywords[i] == m.keywords[i];
          assert forall i :: j + 1 <= i < |d.keywords| ==> m.keywords[i] == m.keywords[j..][i - j];
        }
        AsyncLoopAgrees(d, m', j + 1, ctx, w, c.heap);
      } else {
        AsyncLoopAgrees(d, m, j + 1, ctx, w, h);
      }
    }
  }

  /** `call` on a sync `Singleton` or `Context` root that is unset in the
      current context returns the reference value. */
  lemma CallMatchesReference(root: Node, ctx: Ctx, w: Env, h: State)
    requires Pure(w) && Total(w)
    requires WellFormed(root) && FactoriesBelow(root) && !root.IsAsync()
    requires root.scope.HasCache() && GetValue(root.scope, ctx, h) == Unset
    ensures Call(root, ctx, w, h).out == Done(Naive(w, root))
  {
    var s := ResolveSync(Copy(root), true, ctx, w, h);
    SyncPhaseAgrees(Copy(root), true, ctx, w, h);
    SyncPhaseShape(Copy(root), true, ctx, w, h);
    var m := s.out.value.node;
    LiteralArgsAreTheirValues(w, m);
    assert m.keywords == NaiveArgs(w, root);
  }

  /** `acall` on an async `Singleton` or `Context` root that is unset in
      the current context returns the reference value: running the sync
      subgraphs first and the async spine afterwards changes nothing. */
  lemma ACallMatchesReference(root: Node, ctx: Ctx, w: Env, h: State)
    requires Pure(w) && Total(w)
    requires WellFormed(root) && FactoriesBelow(root) && root.IsAsync()
    requires root.scope.HasCache() && GetValue(root.scope, ctx, h) == Unset
    ensures ACall(root, ctx, w, h).out == Done(Naive(w, root))
  {
    var s := ResolveSync(Copy(root), true, ctx, w, h);
    SyncPhaseAgrees(Copy(root), true, ctx, w, h);
    SyncPhaseShape(Copy(root), true, ctx, w, h);
    var m1 := s.out.value.node;
    var a := ResolveAsync(m1, true, ctx, w, s.heap);
    AsyncPhaseAgrees(m1, true, ctx, w, s.heap);
    var m2 := a.out.value.node;
    assert m2.keywords == NaiveArgs(w, root);
  }

  /** `call` on a sync `Factory` root runs its provider on the reference
      arguments and then raises, because `Factory` has no `set_value`. */
  lemma FactoryRootCallRaisesAfterRunning(root: Node, ctx: Ctx, w: Env, h: State)
    requires Pure(w) && Total(w)
    requires WellFormed(root) && AllFactory(root) && !root.IsAsync()
    ensures
      var r := Call(root, ctx, w, h);
      && r.out == Raise(AttributeError("set_value"))
      && |r.heap.log| > 0
      && r.heap.log[|r.heap.log| - 1] == Invocation(root.scope.func, NaiveArgs(w, root))
  {
    var s := ResolveSync(Copy(root), true, ctx, w, h);
    SyncPhaseAgrees(Copy(root), true, ctx, w, h);
    SyncPhaseShape(Copy(root), true, ctx, w, h);
    var m := s.out.value.node;
    LiteralArgsAreTheirValues(w, m);
    assert m.keywords == NaiveArgs(w, root);
  }
}

=== FILE: resolution_facts.dfy ===
/** What the two resolution phases of tinydi/dependency.py guarantee on a
    graph the constructor accepted: which nodes phase one collapses, what it
    leaves for phase two, and that every provider is invoked on ready
    values only, its dependencies having been resolved before it. */
module ResolutionFacts {
  import opened Errors
  import opened Scopes
  import opened Dependencies

  predicate AllLiteral(kws: seq<Binding>) {
    forall j :: 0 <= j < |kws| ==> kws[j].value.Lit?
  }

  /** Every dependency left anywhere below `n` is async. */
  predicate OnlyAsyncDeps(n: Node)
    decreases n
  {
    forall j :: 0 <= j < |n.keywords| && n.keywords[j].value.Dep? ==>
      n.keywords[j].value.node.IsAsync() && OnlyAsyncDeps(n.keywords[j].value.node)
  }

  /** The log only grew, and every provider invoked meanwhile received
      ready values, no unresolved `Dependency` object. */
  ghost predicate LiteralCalls(old_log: seq<Invocation<Kwargs>>, new_log: seq<Invocation<Kwargs>>) {
    && LogExtends(old_log, new_log)
    && forall k :: |old_log| <= k < |new_log| ==> AllLiteral(new_log[k].kwargs)
  }

  /** What phase one left in place of the original binding `orig`: a value,
      or, where `orig` was an async dependency, an async node with only
      async dependencies below it. */
  predicate Resolved(orig: Bound, b: Bound) {
    b.Lit? || (IsAsyncDep(orig) && b.node.IsAsync() && OnlyAsyncDeps(b.node))
  }

  lemma LiteralCallsTrans(a: seq<Invocation<Kwargs>>, b: seq<Invocation<Kwargs>>, c: seq<Invocation<Kwargs>>)
    requires LiteralCalls(a, b) && LiteralCalls(b, c)
    ensures LiteralCalls(a, c)
  {
  }

  lemma ScopeCallOnValues(s: Scope, kwargs: Kwargs, awaited: bool, ctx: Ctx, w: Env, h: State)
    requires awaited ==> s.IsAsync()
    requires AllLiteral(kwargs)
    ensures LiteralCalls(h.log, ScopeCall(s, kwargs, awaited, ctx, w, h).heap.log)
  {
  }

  /** The constructor's facts about one accepted node. */
  lemma WellFormedFacts(d: Node)
    requires WellFormed(d)
    ensures d.hasAsyncDeps <==> exists j :: 0 <= j < |d.keywords| && IsAsyncDep(d.keywords[j].value)
    ensures !d.IsAsync() ==> !d.hasAsyncDeps
    ensures forall j :: 0 <= j < |d.keywords| && d.keywords[j].value.Dep? ==> WellFormed(d.keywords[j].value.node)
  {
  }

  /** Phase one on an accepted node: a non-top sync node becomes a value;
      what stays a node is the top or async, has only async dependencies
      below it, and, if sync, only values as bindings. */
  lemma {:induction false} SyncPhaseShape(d: Node, top: bool, ctx: Ctx, w: Env, h: State)
    requires WellFormed(d)
    ensures
      var r := ResolveSync(d, top, ctx, w, h);
      && LiteralCalls(h.log, r.heap.log)
      && (r.out.Done? && !top && !d.IsAsync() ==> r.out.value.Lit?)
      && (r.out.Done? && r.out.value.Dep? ==>
            && (top || d.IsAsync())
            && OnlyAsyncDeps(r.out.value.node)
            && (!d.IsAsync() ==> AllLiteral(r.out.value.node.keywords)))
    decreases d, 1
  {
    WellFormedFacts(d);
    var s := SyncLoop(d, d, 0, ctx, w, h);
    SyncLoopShape(d, d, 0, ctx, w, h);
    match s.out
    case Raise(e) =>
    case Done(m) =>
      var kw := m.keywords;
      assert forall i :: 0 <= i < |kw| ==> Resolved(d.keywords[i].value, kw[i].value);
      if !d.IsAsync() {
        assert AllLiteral(kw);
      }
      if !m.IsAsync() && !m.hasAsyncDeps && !top {
        ScopeCallOnValues(m.scope, kw, false, ctx, w, s.heap);
        LiteralCallsTrans(h.log, s.heap.log, ScopeCall(m.scope, kw, false, ctx, w, s.heap).heap.log);
      } else {
        assert OnlyAsyncDeps(m);
      }
  }

  lemma {:induction false} SyncLoopShape(d: Node, m: Node, j: nat, ctx: Ctx, w: Env, h: State)
    requires WellFormed(d)
    requires j <= |d.keywords|
    requires SameShape(d, m)
    requires m.keywords[j..] == d.keywords[j..]
    requires forall i :: 0 <= i < j ==> Resolved(d.keywords[i].value, m.keywords[i].value)
    ensures
      var r := SyncLoop(d, m, j, ctx, w, h);
      && LiteralCalls(h.log, r.heap.log)
      && (r.out.Done? ==> forall i :: 0 <= i < |d.keywords| ==> Resolved(d.keywords[i].value, r.out.value.keywords[i].value))
    decreases d, 0, |d.keywords| - j
  {
    if j == |d.keywords| {
      assert h.log[..|h.log|] == h.log;
    } else {
      WellFormedFacts(d);
      assert m.keywords[j] == d.keywords[j] by {
        assert m.keywords[j..][0] == d.keywords[j..][0];
      }
      match m.keywords[j].value
      case Lit(_) =>
        SyncLoopShape(d, m, j + 1, ctx, w, h);
      case Dep(child) =>
        var c := ResolveSync(Copy(child), false, ctx, w, h);
        SyncPhaseShape(Copy(child), false, ctx, w, h);
        match c.out
        case Raise(e) =>
        case Done(b) =>
          var m' := SetKeyword(m, j, b);
          SyncShapeStep(d, m, j, b);
          SyncLoopShape(d, m', j + 1, ctx, w, c.heap);
          LiteralCallsTrans(h.log, c.heap.log, SyncLoop(d, m', j + 1, ctx, w, c.heap).heap.log);
    }
  }

  /** One step of the phase-one loop: a resolved binding `j` extends the
      resolved prefix of the working copy by one. */
  lemma SyncShapeStep(d: Node, m: Node, j: nat, b: Bound)
    requires j < |d.keywords| && SameShape(d, m)
    requires m.keywords[j..] == d.keywords[j..]
    requires forall i :: 0 <= i < j ==> Resolved(d.keywords[i].value, m.keywords[i].value)
    requires Resolved(d.keywords[j].value, b)
    ensures
      var m' := SetKeyword(m, j, b);
      && m'.keywords[j + 1..] == d.keywords[j + 1..]
      && forall i :: 0 <= i < j + 1 ==> Resolved(d.keywords[i].value, m'.keywords[i].value)
  {
  }

  /** Phase two on what phase one left: every remaining binding becomes a
      value, so the top node is left with values only, and a non-top node's
      provider is awaited on values. */
  lemma {:induction false} AsyncPhaseShape(d: Node, top: bool, ctx: Ctx, w: Env, h: State)
    requires OnlyAsyncDeps(d)
    requires top || d.IsAsync()
    ensures
      var r := ResolveAsync(d, top, ctx, w, h);
      && LiteralCalls(h.log, r.heap.log)
      && (r.out.Done? && top ==> AllLiteral(r.out.value.node.keywords))
    decreases d, 1
  {
    var s := AsyncLoop(d, d, 0, ctx, w, h);
    AsyncLoopShape(d, d, 0, ctx, w, h);
    match s.out
    case Raise(e) =>
    case Done(m) =>
      if !top {
        ScopeCallOnValues(m.scope, m.keywords, true, ctx, w, s.heap);
        LiteralCallsTrans(h.log, s.heap.log, ScopeCall(m.scope, m.keywords, true, ctx, w, s.heap).heap.log);
      }
  }

  lemma {:induction false} AsyncLoopShape(d: Node, m: Node, j: nat, ctx: Ctx, w: Env, h: State)
    requires OnlyAsyncDeps(d)
    requires j <= |d.keywords|
    requires SameShape(d, m)
    requires m.keywords[j..] == d.keywords[j..]
    requires forall i :: 0 <= i < j ==> m.keywords[i].value.Lit?
    ensures
      var r := AsyncLoop(d, m, j, ctx, w, h);
      && LiteralCalls(h.log, r.heap.log)
      && (r.out.Done? ==> AllLiteral(r.out.value.keywords))
    decreases d, 0, |d.keywords| - j
  {
    if j == |d.keywords| {
      assert h.log[..|h.log|] == h.log;
    } else {
      assert m.keywords[j] == d.keywords[j] by {
        assert m.keywords[j..][0] == d.keywords[j..][0];
      }
      var b := m.keywords[j].value;
      if b.Dep? && b.node.IsAsync() {
        var c := ResolveAsync(b.node, false, ctx, w, h);
        AsyncPhaseShape(b.node, false, ctx, w, h);
        match c.out
        case Raise(e) =>
        case Done(v) =>
          var m' := SetKeyword(m, j, v);
          assert m'.keywords[j + 1..] == d.keywords[j + 1..] by {
            assert forall i :: j + 1 <= i < |d.keywords| ==> m'.keywords[i] == m.keywords[i];
            assert forall i :: j + 1 <= i < |d.keywords| ==> m.keywords[i] == m.keywords[j..][i - j];
          }
          AsyncLoopShape(d, m', j + 1, ctx, w, c.heap);
          LiteralCallsTrans(h.log, c.heap.log, AsyncLoop(d, m', j + 1, ctx, w, c.heap).heap.log);
      } else {
        AsyncLoopShape(d, m, j + 1, ctx, w, h);
      }
    }
  }

  lemma SameShapeTrans(a: Node, b: Node, c: Node)
    requires SameShape(a, b) && SameShape(b, c)
    ensures SameShape(a, c)
  {
  }

  /** Children before parents in phase one: a sync node first resolves all
      its bindings, which only extends the log, and then, on ready values,
      runs its own provider exactly once, last, if it is a `Factory` or its
      slot is still unset; if the slot is set it runs nothing more and
      yields the stored value. */
  lemma ParentRunsAfterChildren(d: Node, ctx: Ctx, w: Env, h: State)
    requires WellFormed(d) && !d.IsAsync()
    ensures
      var r := ResolveSync(d, false, ctx, w, h);
      var s := SyncLoop(d, d, 0, ctx, w, h);
      r.out.Done? ==>
        && s.out.Done?
        && LogExtends(h.log, s.heap.log)
        && AllLiteral(s.out.value.keywords)
        && r.out.value.Lit?
        && (d.scope.Factory? || GetValue(d.scope, ctx, s.heap) == Unset ==>
              && r.heap.log == s.heap.log + [Invocation(d.scope.func, s.out.value.keywords)]
              && r.out.value == Lit(w(d.scope.func, s.out.value.keywords, |s.heap.log|).value))
        && (d.scope.HasCache() && GetValue(d.scope, ctx, s.heap).Hit? ==>
              r.heap.log == s.heap.log && r.out.value.v == GetValue(d.scope, ctx, s.heap).value)
  {
    SyncPhaseShape(d, false, ctx, w, h);
    SyncLoopShape(d, d, 0, ctx, w, h);
  }

  /** The same in phase two for a non-top async node: its async bindings
      are awaited first, then its own provider is awaited once, last, on
      ready values, unless its slot is already set. */
  lemma ParentRunsAfterChildrenAsync(d: Node, ctx: Ctx, w: Env, h: State)
    requires OnlyAsyncDeps(d) && d.IsAsync()
    ensures
      var r := ResolveAsync(d, false, ctx, w, h);
      var s := AsyncLoop(d, d, 0, ctx, w, h);
      r.out.Done? ==>
        && s.out.Done?
        && LogExtends(h.log, s.heap.log)
        && AllLiteral(s.out.value.keywords)
        && r.out.value.Lit?
        && (d.scope.Factory? || GetValue(d.scope, ctx, s.heap) == Unset ==>
              && r.heap.log == s.heap.log + [Invocation(d.scope.func, s.out.value.keywords)]
              && r.out.value == Lit(w(d.scope.func, s.out.value.keywords, |s.heap.log|).value))
        && (d.scope.HasCache() && GetValue(d.scope, ctx, s.heap).Hit? ==>
              r.heap.log == s.heap.log && r.out.value.v == GetValue(d.scope, ctx, s.heap).value)
  {
    AsyncLoopShape(d, d, 0, ctx, w, h);
  }

  /** Both phases on an accepted root: the working copy keeps the root's
      scope and parameter names, and is left with values only. */
  lemma TwoPhasesLeaveOnlyValues(root: Node, ctx: Ctx, w: Env, h: State)
    requires WellFormed(root)
    ensures
      var s := ResolveSync(Copy(root), true, ctx, w, h);
      s.out.Done? ==>
        var a := ResolveAsync(s.out.value.node, true, ctx, w, s.heap);
        a.out.Done? ==> SameShape(root, a.out.value.node) && AllLiteral(a.out.value.node.keywords)
  {
    var s := ResolveSync(Copy(root), true, ctx, w, h);
    SyncPhaseShape(Copy(root), true, ctx, w, h);
    if s.out.Done? {
      var a := ResolveAsync(s.out.value.node, true, ctx, w, s.heap);
      AsyncPhaseShape(s.out.value.node, true, ctx, w, s.heap);
      if a.out.Done? {
        SameShapeTrans(root, s.out.value.node, a.out.value.node);
      }
    }
  }

  /** `call` on an accepted graph invokes every provider on ready values. */
  lemma CallPassesOnlyValues(root: Node, ctx: Ctx, w: Env, h: State)
    requires WellFormed(root)
    ensures LiteralCalls(h.log, Call(root, ctx, w, h).heap.log)
  {
    var s := ResolveSync(Copy(root), true, ctx, w, h);
    SyncPhaseShape(Copy(root), true, ctx, w, h);
    if s.out.Done? {
      var m := s.out.value.node;
      var c := ScopeCall(m.scope, m.keywords, false, ctx, w, s.heap);
      if !root.IsAsync() {
        ScopeCallOnValues(m.scope, m.keywords, false, ctx, w, s.heap);
        LiteralCallsTrans(h.log, s.heap.log, c.heap.log);
      } else {
        assert c.heap == s.heap;
      }
    }
  }

  /** `acall` on an accepted graph invokes every provider on ready values. */
  lemma ACallPassesOnlyValues(root: Node, ctx: Ctx, w: Env, h: State)
    requires WellFormed(root) && root.IsAsync()
    ensures LiteralCalls(h.log, ACall(root, ctx, w, h).heap.log)
  {
    var s := ResolveSync(Copy(root), true, ctx, w, h);
    SyncPhaseShape(Copy(root), true, ctx, w, h);
    if s.out.Done? {
      var a := ResolveAsync(s.out.value.node, true, ctx, w, s.heap);
      AsyncPhaseShape(s.out.value.node, true, ctx, w, s.heap);
      LiteralCallsTrans(h.log, s.heap.log, a.heap.log);
      if a.out.Done? {
        var m := a.out.value.node;
        ScopeCallOnValues(m.scope, m.keywords, true, ctx, w, a.heap);
        LiteralCallsTrans(h.log, a.heap.log, ScopeCall(m.scope, m.keywords, true, ctx, w, a.heap).heap.log);
      }
    }
  }

  // ----- which cache slots resolution may write -----

  /** `id` is the identity of a `Singleton` or `Context` scope of `n` or of
      a node below it. */
  predicate OwnsId(n: Node, id: nat)
    decreases n, 1
  {
    (n.scope.HasCache() && n.scope.id == id) || OwnedBelow(n, id)
  }

  /** `id` is the identity of a cached scope strictly below `n`. */
  predicate OwnedBelow(n: Node, id: nat)
    decreases n, 0
  {
    exists j :: 0 <= j < |n.keywords| && n.keywords[j].value.Dep? && OwnsId(n.keywords[j].value.node, id)
  }

  ghost predicate Unchanged(c1: map<Slot, Val>, c2: map<Slot, Val>, k: Slot) {
    (k in c1 <==> k in c2) && (k in c1 ==> c1[k] == c2[k])
  }

  /** Resolving a node writes only slots of scopes in it, and at the top
      only slots of scopes below it; the node it keeps holds no other scopes. */
  lemma {:induction false} SyncPhaseFrame(d: Node, top: bool, ctx: Ctx, w: Env, h: State)
    ensures
      var r := ResolveSync(d, top, ctx, w, h);
      && (forall k: Slot :: !OwnedBelow(d, k.id) && !(!top && OwnsId(d, k.id)) ==> Unchanged(h.cache, r.heap.cache, k))
      && (r.out.Done? && r.out.value.Dep? ==> forall id :: OwnedBelow(r.out.value.node, id) ==> OwnedBelow(d, id))
    decreases d, 1
  {
    var s := SyncLoop(d, d, 0, ctx, w, h);
    SyncLoopFrame(d, d, 0, ctx, w, h);
    match s.out
    case Raise(e) =>
    case Done(m) =>
      if !m.IsAsync() && !m.hasAsyncDeps && !top {
        var c := ScopeCall(m.scope, m.keywords, false, ctx, w, s.heap);
        forall k: Slot | !OwnedBelow(d, k.id) && !OwnsId(d, k.id) ensures Unchanged(h.cache, c.heap.cache, k) {
          assert Unchanged(h.cache, s.heap.cache, k);
          if m.scope.HasCache() {
            assert k != SlotOf(m.scope, ctx);
          }
        }
      }
  }

  lemma {:induction false} SyncLoopFrame(d: Node, m: Node, j: nat, ctx: Ctx, w: Env, h: State)
    requires j <= |d.keywords|
    requires SameShape(d, m)
    requires m.keywords[j..] == d.keywords[j..]
    requires forall id :: OwnedBelow(m, id) ==> OwnedBelow(d, id)
    ensures
      var r := SyncLoop(d, m, j, ctx, w, h);
      && (forall k: Slot :: !OwnedBelow(d, k.id) ==> Unchanged(h.cache, r.heap.cache, k))
      && (r.out.Done? ==> forall id :: OwnedBelow(r.out.value, id) ==> OwnedBelow(d, id))
    decreases d, 0, |d.keywords| - j
  {
    if j < |d.keywords| {
      assert m.keywords[j] == d.keywords[j] by {
        assert m.keywords[j..][0] == d.keywords[j..][0];
      }
      match m.keywords[j].value
      case Lit(_) =>
        SyncLoopFrame(d, m, j + 1, ctx, w, h);
      case Dep(child) =>
        var c := ResolveSync(Copy(child), false, ctx, w, h);
        SyncPhaseFrame(Copy(child), false, ctx, w, h);
        match c.out
        case Raise(e) =>
          ChildFrame(d, j, h.cache, c.heap.cache);
        case Done(b) =>
          var m' := SetKeyword(m, j, b);
          assert m'.keywords[j + 1..] == d.keywords[j + 1..] by {
            assert forall i :: j + 1 <= i < |d.keywords| ==> m'.keywords[i] == m.keywords[i];
            assert forall i :: j + 1 <= i < |d.keywords| ==> m.keywords[i] == m.keywords[j..][i - j];
          }
          forall id | OwnedBelow(m', id) ensures OwnedBelow(d, id) {
            var i :| 0 <= i < |m'.keywords| && m'.keywords[i].value.Dep? && OwnsId(m'.keywords[i].value.node, id);
            if i == j {
              assert OwnsId(child, id);
            } else {
              assert OwnedBelow(m, id);
            }
          }
          ChildFrame(d, j, h.cache, c.heap.cache);
          SyncLoopFrame(d, m', j + 1, ctx, w, c.heap);
    }
  }

  /** A change framed by the `j`-th child is framed by its parent. */
  lemma ChildFrame(d: Node, j: nat, c1: map<Slot, Val>, c2: map<Slot, Val>)
    requires j < |d.keywords| && d.keywords[j].value.Dep?
    requires forall k: Slot :: !OwnsId(d.keywords[j].value.node, k.id) ==> Unchanged(c1, c2, k)
    ensures forall k: Slot :: !OwnedBelow(d, k.id) ==> Unchanged(c1, c2, k)
  {
  }

  lemma {:induction false} AsyncPhaseFrame(d: Node, top: bool, ctx: Ctx, w: Env, h: State)
    requires top || d.IsAsync()
    ensures
      var r := ResolveAsync(d, top, ctx, w, h);
      forall k: Slot :: !OwnedBelow(d, k.id) && !(!top && OwnsId(d, k.id)) ==> Unchanged(h.cache, r.heap.cache, k)
    decreases d, 1
  {
    var s := AsyncLoop(d, d, 0, ctx, w, h);
    AsyncLoopFrame(d, d, 0, ctx, w, h);
    match s.out
    case Raise(e) =>
    case Done(m) =>
      if !top {
        var c := ScopeCall(m.scope, m.keywords, true, ctx, w, s.heap);
        forall k: Slot | !OwnedBelow(d, k.id) && !OwnsId(d, k.id) ensures Unchanged(h.cache, c.heap.cache, k) {
          assert Unchanged(h.cache, s.heap.cache, k);
          if m.scope.HasCache() {
            assert k != SlotOf(m.scope, ctx);
          }
        }
      }
  }

  lemma {:induction false} AsyncLoopFrame(d: Node, m: Node, j: nat, ctx: Ctx, w: Env, h: State)
    requires j <= |d.keywords|
    requires SameShape(d, m)
    requires m.keywords[j..] == d.keywords[j..]
    ensures
      var r := AsyncLoop(d, m, j, ctx, w, h);
      forall k: Slot :: !OwnedBelow(d, k.id) ==> Unchanged(h.cache, r.heap.cache, k)
    decreases d, 0, |d.keywords| - j
  {
    if j < |d.keywords| {
      assert m.keywords[j] == d.keywords[j] by {
        assert m.keywords[j..][0] == d.keywords[j..][0];
      }
      var b := m.keywords[j].value;
      if b.Dep? && b.node.IsAsync() {
        var c := ResolveAsync(b.node, false, ctx, w, h);
        AsyncPhaseFrame(b.node, false, ctx, w, h);
        ChildFrame(d, j, h.cache, c.heap.cache);
        match c.out
        case Raise(e) =>
        case Done(v) =>
          var m' := SetKeyword(m, j, v);
          assert m'.keywords[j + 1..] == d.keywords[j + 1..] by {
            assert forall i :: j + 1 <= i < |d.keywords| ==> m'.keywords[i] == m.keywords[i];
            assert forall i :: j + 1 <= i < |d.keywords| ==> m.keywords[i] == m.keywords[j..][i - j];
          }
          AsyncLoopFrame(d, m', j + 1, ctx, w, c.heap);
      } else {
        AsyncLoopFrame(d, m, j + 1, ctx, w, h);
      }
    }
  }

  // ----- a slot, once set, stays set -----

  /** Every slot set in `c1` holds the same value in `c2`. */
  ghost predicate KeepsSet(c1: map<Slot, Val>, c2: map<Slot, Val>) {
    forall k :: k in c1 ==> k in c2 && c2[k] == c1[k]
  }

  /** A scope call writes only on a miss, so no set slot changes. */
  lemma ScopeCallKeepsSet(s: Scope, kwargs: Kwargs, awaited: bool, ctx: Ctx, w: Env, h: State)
    requires awaited ==> s.IsAsync()
    ensures KeepsSet(h.cache, ScopeCall(s, kwargs, awaited, ctx, w, h).heap.cache)
  {
  }

  /** Phase one never changes a slot that was already set, whatever scopes
      the graph holds and however often they occur. */
  lemma {:induction false} SyncPhaseKeepsSet(d: Node, top: bool, ctx: Ctx, w: Env, h: State)
    ensures KeepsSet(h.cache, ResolveSync(d, top, ctx, w, h).heap.cache)
    decreases d, 1
  {
    var s := SyncLoop(d, d, 0, ctx, w, h);
    SyncLoopKeepsSet(d, d, 0, ctx, w, h);
    if s.out.Done? {
      var m := s.out.value;
      if !m.IsAsync() && !m.hasAsyncDeps && !top {
        ScopeCallKeepsSet(m.scope, m.keywords, false, ctx, w, s.heap);
      }
    }
  }

  lemma {:induction false} SyncLoopKeepsSet(d: Node, m: Node, j: nat, ctx: Ctx, w: Env, h: State)
    requires j <= |d.keywords|
    requires SameShape(d, m)
    requires m.keywords[j..] == d.keywords[j..]
    ensures KeepsSet(h.cache, SyncLoop(d, m, j, ctx, w, h).heap.cache)
    decreases d, 0, |d.keywords| - j
  {
    if j < |d.keywords| {
      assert m.keywords[j] == d.keywords[j] by {
        assert m.keywords[j..][0] == d.keywords[j..][0];
      }
      match m.keywords[j].value
      case Lit(_) =>
        SyncLoopKeepsSet(d, m, j + 1, ctx, w, h);
      case Dep(child) =>
        var c := ResolveSync(Copy(child), false, ctx, w, h);
        SyncPhaseKeepsSet(Copy(child), false, ctx, w, h);
        if c.out.Done? {
          var m' := SetKeyword(m, j, c.out.value);
          assert m'.keywords[j + 1..] == d.keywords[j + 1..] by {
            assert forall i :: j + 1 <= i < |d.keywords| ==> m'.keywords[i] == m.keywords[i];
            assert forall i :: j + 1 <= i < |d.keywords| ==> m.keywords[i] == m.keywords[j..][i - j];
          }
          SyncLoopKeepsSet(d, m', j + 1, ctx, w, c.heap);
        }
    }
  }

  /** Phase two never changes a slot that was already set. */
  lemma {:induction false} AsyncPhaseKeepsSet(d: Node, top: bool, ctx: Ctx, w: Env, h: State)
    requires top || d.IsAsync()
    ensures KeepsSet(h.cache, ResolveAsync(d, top, ctx, w, h).heap.cache)
    decreases d, 1
  {
    var s := AsyncLoop(d, d, 0, ctx, w, h);
    AsyncLoopKeepsSet(d, d, 0, ctx, w, h);
    if s.out.Done? && !top {
      ScopeCallKeepsSet(s.out.value.scope, s.out.value.keywords, true, ctx, w, s.heap);
    }
  }

  lemma {:induction false} AsyncLoopKeepsSet(d: Node, m: Node, j: nat, ctx: Ctx, w: Env, h: State)
    requires j <= |d.keywords|
    requires SameShape(d, m)
    requires m.keywords[j..] == d.keywords[j..]
    ensures KeepsSet(h.cache, AsyncLoop(d, m, j, ctx, w, h).heap.cache)
    decreases d, 0, |d.keywords| - j
  {
    if j < |d.keywords| {
      assert m.keywords[j] == d.keywords[j] by {
        assert m.keywords[j..][0] == d.keywords[j..][0];
      }
      var b := m.keywords[j].value;
      if b.Dep? && b.node.IsAsync() {
        var c := ResolveAsync(b.node, false, ctx, w, h);
        AsyncPhaseKeepsSet(b.node, false, ctx, w, h);
        if c.out.Done? {
          var m' := SetKeyword(m, j, c.out.value);
          assert m'.keywords[j + 1..] == d.keywords[j + 1..] by {
            assert forall i :: j + 1 <= i < |d.keywords| ==> m'.keywords[i] == m.keywords[i];
            assert forall i :: j + 1 <= i < |d.keywords| ==> m.keywords[i] == m.keywords[j..][i - j];
          }
          AsyncLoopKeepsSet(d, m', j + 1, ctx, w, c.heap);
        }
      } else {
        AsyncLoopKeepsSet(d, m, j + 1, ctx, w, h);
      }
    }
  }

  /** A shared `Singleton` or `Context` runs at most once per slot: once a
      resolution has set its slot, a later visit of the node, after any
      other subgraph `e` was resolved in between, yields the first value
      and runs nothing beyond the node's own bindings. */
  lemma SecondVisitRunsNothing(e: Node, d: Node, ctx: Ctx, w: Env, h: State)
    requires WellFormed(d) && !d.IsAsync() && d.scope.HasCache()
    requires GetValue(d.scope, ctx, h).Hit?
    ensures
      var h' := ResolveSync(e, false, ctx, w, h).heap;
      var r := ResolveSync(d, false, ctx, w, h');
      r.out.Done? ==>
        && r.out.value == Lit(GetValue(d.scope, ctx, h).value)
        && r.heap.log == SyncLoop(d, d, 0, ctx, w, h').heap.log
  {
    var h' := ResolveSync(e, false, ctx, w, h).heap;
    SyncPhaseKeepsSet(e, false, ctx, w, h);
    SyncLoopKeepsSet(d, d, 0, ctx, w, h');
    ParentRunsAfterChildren(d, ctx, w, h');
  }

  /** A cached `Singleton` or `Context` root: `acall` still resolves the
      dependencies, but the root's own provider does not run; the stored
      value is returned and stays stored. */
  lemma CachedRootIsReturned(root: Node, v: Val, ctx: Ctx, w: Env, h: State)
    requires root.IsAsync() && root.scope.HasCache()
    requires GetValue(root.scope, ctx, h) == Hit(v)
    ensures
      var r := ACall(root, ctx, w, h);
      var s := ResolveSync(Copy(root), true, ctx, w, h);
      && (r.out.Done? ==> r.out.value == v && GetValue(root.scope, ctx, r.heap) == Hit(v))
      && (s.out.Done? ==>
            var a := ResolveAsync(s.out.value.node, true, ctx, w, s.heap);
            a.out.Done? ==> r.out == Done(v) && r.heap.log == a.heap.log && r.heap.cache == a.heap.cache)
  {
    var k := SlotOf(root.scope, ctx);
    var s := ResolveSync(Copy(root), true, ctx, w, h);
    SyncPhaseKeepsSet(Copy(root), true, ctx, w, h);
    if s.out.Done? {
      var m := s.out.value.node;
      var a := ResolveAsync(m, true, ctx, w, s.heap);
      AsyncPhaseKeepsSet(m, true, ctx, w, s.heap);
      if a.out.Done? {
        assert a.heap.cache[k := v] == a.heap.cache;
      }
    }
  }

  /** The same for `call` on a sync root. */
  lemma CachedSyncRootIsReturned(root: Node, v: Val, ctx: Ctx, w: Env, h: State)
    requires !root.IsAsync() && root.scope.HasCache()
    requires GetValue(root.scope, ctx, h) == Hit(v)
    ensures
      var r := Call(root, ctx, w, h);
      var s := ResolveSync(Copy(root), true, ctx, w, h);
      && (r.out.Done? ==> r.out.value == v && GetValue(root.scope, ctx, r.heap) == Hit(v))
      && (s.out.Done? ==> r.out == Done(v) && r.heap.log == s.heap.log && r.heap.cache == s.heap.cache)
  {
    var k := SlotOf(root.scope, ctx);
    var s := ResolveSync(Copy(root), true, ctx, w, h);
    SyncPhaseKeepsSet(Copy(root), true, ctx, w, h);
    if s.out.Done? {
      assert s.heap.cache[k := v] == s.heap.cache;
    }
  }

  /** `call` on a sync caching root whose slot is unset, and whose scope
      object does not also occur below it: after phase one the root's
      provider runs exactly once, last, on phase one's keywords, and its
      outcome is what `call` returns (and, on success, stores). */
  lemma UnsetSyncRootRunsLast(root: Node, ctx: Ctx, w: Env, h: State)
    requires !root.IsAsync() && root.scope.HasCache()
    requires GetValue(root.scope, ctx, h) == Unset
    requires !OwnedBelow(root, root.scope.id)
    ensures
      var r := Call(root, ctx, w, h);
      var s := ResolveSync(Copy(root), true, ctx, w, h);
      s.out.Done? ==>
        && s.out.value.Dep?
        && r.heap.log == s.heap.log + [Invocation(root.scope.func, s.out.value.node.keywords)]
        && r.out == w(root.scope.func, s.out.value.node.keywords, |s.heap.log|)
  {
    var k := SlotOf(root.scope, ctx);
    var s := ResolveSync(Copy(root), true, ctx, w, h);
    SyncPhaseFrame(Copy(root), true, ctx, w, h);
    assert Unchanged(h.cache, s.heap.cache, k);
  }

  /** `acall` on an async caching root whose slot is unset, and whose scope
      object does not also occur below it: after both phases the root's
      provider is awaited exactly once, last, on phase two's keywords, and
      its outcome is what `acall` returns (and, on success, stores). */
  lemma UnsetRootRunsLast(root: Node, ctx: Ctx, w: Env, h: State)
    requires root.IsAsync() && root.scope.HasCache()
    requires GetValue(root.scope, ctx, h) == Unset
    requires !OwnedBelow(root, root.scope.id)
    ensures
      var r := ACall(root, ctx, w, h);
      var s := ResolveSync(Copy(root), true, ctx, w, h);
      s.out.Done? ==>
        && s.out.value.Dep?
        && var a := ResolveAsync(s.out.value.node, true, ctx, w, s.heap);
           a.out.Done? ==>
             && a.out.value.Dep?
             && r.heap.log == a.heap.log + [Invocation(root.scope.func, a.out.value.node.keywords)]
             && r.out == w(root.scope.func, a.out.value.node.keywords, |a.heap.log|)
  {
    var k := SlotOf(root.scope, ctx);
    var s := ResolveSync(Copy(root), true, ctx, w, h);
    SyncPhaseFrame(Copy(root), true, ctx, w, h);
    if s.out.Done? {
      var m := s.out.value.node;
      assert Unchanged(h.cache, s.heap.cache, k);
      AsyncPhaseFrame(m, true, ctx, w, s.heap);
      assert !OwnedBelow(m, k.id);
    }
  }

  // ----- identities stay fresh -----

  /** Phase one from a valid heap, on a node whose scope identities were all
      handed out already, leaves a valid heap: it writes only those slots
      and hands out no identity. */
  lemma SyncPhaseKeepsValid(d: Node, top: bool, ctx: Ctx, w: Env, h: State)
    requires Valid(h)
    requires forall id: nat :: OwnsId(d, id) ==> id < h.nextId
    ensures Valid(ResolveSync(d, top, ctx, w, h).heap)
  {
    var r := ResolveSync(d, top, ctx, w, h);
    SyncPhaseFrame(d, top, ctx, w, h);
    forall k | k in r.heap.cache ensures k.id < r.heap.nextId {
      if !OwnsId(d, k.id) {
        assert Unchanged(h.cache, r.heap.cache, k);
      }
    }
  }

  /** `call` keeps the heap valid, so a scope constructed afterwards still
      starts unset. */
  lemma CallKeepsValid(root: Node, ctx: Ctx, w: Env, h: State)
    requires Valid(h)
    requires forall id: nat :: OwnsId(root, id) ==> id < h.nextId
    ensures Valid(Call(root, ctx, w, h).heap)
  {
    var s := ResolveSync(Copy(root), true, ctx, w, h);
    SyncPhaseKeepsValid(Copy(root), true, ctx, w, h);
    if root.scope.HasCache() {
      assert OwnsId(root, root.scope.id);
    }
  }

  /** `acall` keeps the heap valid. */
  lemma ACallKeepsValid(root: Node, ctx: Ctx, w: Env, h: State)
    requires root.IsAsync()
    requires Valid(h)
    requires forall id: nat :: OwnsId(root, id) ==> id < h.nextId
    ensures Valid(ACall(root, ctx, w, h).heap)
  {
    var s := ResolveSync(Copy(root), true, ctx, w, h);
    SyncPhaseKeepsValid(Copy(root), true, ctx, w, h);
    SyncPhaseFrame(Copy(root), true, ctx, w, h);
    if s.out.Done? {
      var m := s.out.value.node;
      var a := ResolveAsync(m, true, ctx, w, s.heap);
      AsyncPhaseFrame(m, true, ctx, w, s.heap);
      forall k | k in a.heap.cache ensures k.id < a.heap.nextId {
        if !OwnedBelow(m, k.id) {
          assert Unchanged(s.heap.cache, a.heap.cache, k);
        } else {
          assert Copy(root) == root;
          assert OwnedBelow(root, k.id);
          assert OwnsId(root, k.id);
        }
      }
      if root.scope.HasCache() {
        assert OwnsId(root, root.scope.id);
      }
    }
  }

  // ----- a `Factory` root -----

  /** `call` on a sync `Factory` root: after phase one the provider runs
      once, last, on phase one's keywords; then `set_value`, which
      `Factory` lacks, raises unless the provider raised first. */
  lemma SyncFactoryRootRunsThenRaises(root: Node, ctx: Ctx, w: Env, h: State)
    requires root.scope.Factory? && !root.IsAsync()
    ensures
      var r := Call(root, ctx, w, h);
      var s := ResolveSync(Copy(root), true, ctx, w, h);
      s.out.Done? ==>
        && s.out.value.Dep?
        && var out := w(root.scope.func, s.out.value.node.keywords, |s.heap.log|);
           && r.heap.log == s.heap.log + [Invocation(root.scope.func, s.out.value.node.keywords)]
           && r.heap.cache == s.heap.cache
           && r.out == (if out.Done? then Raise(AttributeError("set_value")) else out)
  {
  }

  /** `call` on an async `Factory` root: only a coroutine is made, so the
      provider never runs, and `set_value` raises; nothing is stored. */
  lemma AsyncFactoryRootCallRunsNothing(root: Node, ctx: Ctx, w: Env, h: State)
    requires root.scope.Factory? && root.IsAsync()
    ensures
      var r := Call(root, ctx, w, h);
      var s := ResolveSync(Copy(root), true, ctx, w, h);
      s.out.Done? ==> r.heap == s.heap && r.out == Raise(AttributeError("set_value"))
  {
  }

  /** `acall` on an async `Factory` root: after both phases the provider is
      awaited once, last, on phase two's keywords; then `set_value` raises
      unless the provider raised first. */
  lemma AsyncFactoryRootACallRunsThenRaises(root: Node, ctx: Ctx, w: Env, h: State)
    requires root.scope.Factory? && root.IsAsync()
    ensures
      var r := ACall(root, ctx, w, h);
      var s := ResolveSync(Copy(root), true, ctx, w, h);
      s.out.Done? ==>
        && s.out.value.Dep?
        && var a := ResolveAsync(s.out.value.node, true, ctx, w, s.heap);
           a.out.Done? ==>
             && a.out.value.Dep?
             && var out := w(root.scope.func, a.out.value.node.keywords, |a.heap.log|);
                && r.heap.log == a.heap.log + [Invocation(root.scope.func, a.out.value.node.keywords)]
                && r.heap.cache == a.heap.cache
                && r.out == (if out.Done? then Raise(AttributeError("set_value")) else out)
  {
  }
}

=== FILE: scenarios.dfy ===
/** The graph of tests/test_di.py, run through the model: `f1() = 1`,
    `f2(f) = f * 2`, async `f5(f) = f * 5`, async singleton `f7(f) = f * 7`,
    a class `A` and a singleton class `B(a, f)`. Providers that are called
    through `call`/`acall` directly are given a `Singleton` scope, since a
    `Factory` root has no `set_value`. */
module Scenarios {
  import opened Errors
  import opened Scopes
  import opened Dependencies

  const F1 := Provider("f1", false, [])
  const F2 := Provider("f2", false, [Param("f", false)])
  const F5 := Provider("f5", true, [Param("f", false)])
  const F7 := Provider("f7", true, [Param("f", false)])
  const ClassA := Provider("A", false, [])
  const ClassB := Provider("B", false, [Param("a", false), Param("f", false)])

  /** The integer passed as keyword `f`, if any. */
  function IntArg(kw: Kwargs): int {
    if |kw| == 0 then 0
    else if kw[0].name == "f" && kw[0].value.Lit? && kw[0].value.v.IntVal? then kw[0].value.v.i
    else IntArg(kw[1..])
  }

  /** What the test's providers compute; a class call makes a new instance,
      told apart by the invocation count. */
  function Demo(): Env {
    (p: Provider, kw: Kwargs, t: nat) =>
      if p == F1 then Done(IntVal(1))
      else if p == F2 then Done(IntVal(IntArg(kw) * 2))
      else if p == F5 then Done(IntVal(IntArg(kw) * 5))
      else if p == F7 then Done(IntVal(IntArg(kw) * 7))
      else Done(ObjVal(t))
  }

  const Empty: State := Heap(map[], [], 100)

  const N1 := Node(Factory(F1), [], false)
  const N2 := Node(Factory(F2), [Binding("f", Dep(N1))], false)
  const N5 := Node(Factory(F5), [Binding("f", Dep(N2))], false)
  const N7 := Node(Singleton(F7, 7), [Binding("f", Dep(N5))], true)

  // The working copies phase one leaves behind.
  const M2 := Node(Factory(F2), [Binding("f", Lit(IntVal(1)))], false)
  const M5 := Node(Factory(F5), [Binding("f", Lit(IntVal(2)))], false)
  const M7 := Node(Singleton(F7, 7), [Binding("f", Dep(M5))], true)
  const M7Done := Node(Singleton(F7, 7), [Binding("f", Lit(IntVal(10)))], true)

  const CallF1 := Invocation(F1, [])
  const CallF2 := Invocation(F2, [Binding("f", Lit(IntVal(1)))])
  const CallF5 := Invocation(F5, [Binding("f", Lit(IntVal(2)))])
  const CallF7 := Invocation(F7, [Binding("f", Lit(IntVal(10)))])

  /** Phase one on `f1`: it runs and collapses to 1. */
  lemma SyncF1(h: State)
    ensures ResolveSync(N1, false, 0, Demo(), h) == Step(Done(Lit(IntVal(1))), h.(log := h.log + [CallF1]))
  {
  }

  lemma SyncLoopF2(h: State)
    ensures SyncLoop(N2, N2, 0, 0, Demo(), h) == Step(Done(M2), h.(log := h.log + [CallF1]))
  {
    var h1 := h.(log := h.log + [CallF1]);
    SyncF1(h);
    assert Copy(N1) == N1 && SetKeyword(N2, 0, Lit(IntVal(1))) == M2;
    assert SyncLoop(N2, M2, 1, 0, Demo(), h1) == Step(Done(M2), h1);
  }

  /** Phase one on `f2`: `f1` runs, then `f2` on 1, collapsing to 2. */
  lemma SyncF2(h: State)
    ensures ResolveSync(N2, false, 0, Demo(), h) == Step(Done(Lit(IntVal(2))), h.(log := h.log + [CallF1, CallF2]))
  {
    var w := Demo();
    var h1 := h.(log := h.log + [CallF1]);
    SyncLoopF2(h);
    assert IntArg(M2.keywords) == 1;
    assert h1.log + [CallF2] == h.log + [CallF1, CallF2];
  }

  /** Phase one on `f5`: `f2` collapses to 2; `f5` is async and is kept
      for phase two with `f = 2` filled in. */
  lemma SyncF5(h: State)
    ensures ResolveSync(N5, false, 0, Demo(), h) == Step(Done(Dep(M5)), h.(log := h.log + [CallF1, CallF2]))
  {
    var w := Demo();
    var h2 := h.(log := h.log + [CallF1, CallF2]);
    SyncF2(h);
    assert Copy(N2) == N2 && SetKeyword(N5, 0, Lit(IntVal(2))) == M5;
    assert SyncLoop(N5, M5, 1, 0, w, h2) == Step(Done(M5), h2);
    assert SyncLoop(N5, N5, 0, 0, w, h) == Step(Done(M5), h2);
  }

  /** Phase one on the top `f7`: its `f` becomes the kept `f5`. */
  lemma SyncF7(h: State)
    ensures ResolveSync(Copy(N7), true, 0, Demo(), h) == Step(Done(Dep(M7)), h.(log := h.log + [CallF1, CallF2]))
  {
    var w := Demo();
    var h2 := h.(log := h.log + [CallF1, CallF2]);
    SyncF5(h);
    assert Copy(N5) == N5 && Copy(N7) == N7 && SetKeyword(N7, 0, Dep(M5)) == M7;
    assert SyncLoop(N7, M7, 1, 0, w, h2) == Step(Done(M7), h2);
    assert SyncLoop(N7, N7, 0, 0, w, h) == Step(Done(M7), h2);
  }

  /** Phase two: `f5` is awaited on 2 and gives 10; the top keeps `f = 10`. */
  lemma AsyncPhaseBelowF7(h: State)
    ensures ResolveAsync(M7, true, 0, Demo(), h) == Step(Done(Dep(M7Done)), h.(log := h.log + [CallF5]))
  {
    var w := Demo();
    var h1 := h.(log := h.log + [CallF5]);
    assert AsyncLoop(M5, M5, 0, 0, w, h) == Step(Done(M5), h);
    assert IntArg(M5.keywords) == 2;
    assert ResolveAsync(M5, false, 0, w, h) == Step(Done(Lit(IntVal(10))), h1);
    assert SetKeyword(M7, 0, Lit(IntVal(10))) == M7Done;
    assert AsyncLoop(M7, M7Done, 1, 0, w, h1) == Step(Done(M7Done), h1);
    assert AsyncLoop(M7, M7, 0, 0, w, h) == Step(Done(M7Done), h1);
  }

  const AfterFirst: State := Heap(map[Global(7) := IntVal(70)], [CallF1, CallF2, CallF5, CallF7], 100)

  /** `await di[f7] == 70`: providers run children first, `f1`, `f2`, `f5`,
      then `f7`, and the singleton stores 70. */
  lemma AcallF7()
    ensures ACall(N7, 0, Demo(), Empty) == Step(Done(IntVal(70)), AfterFirst)
  {
    var w := Demo();
    var h2 := Empty.(log := [CallF1, CallF2]);
    var h3 := Empty.(log := [CallF1, CallF2, CallF5]);
    SyncF7(Empty);
    AsyncPhaseBelowF7(h2);
    assert IntArg(M7Done.keywords) == 10;
    var c := ScopeCall(Singleton(F7, 7), M7Done.keywords, true, 0, w, h3);
    assert c == Step(Done(IntVal(70)), AfterFirst);
  }

  /** A second `acall` of the singleton returns 70 again: `f1`, `f2` and
      `f5`, which are factories, run again, `f7` does not. */
  lemma AcallF7Again()
    ensures
      var r := ACall(N7, 0, Demo(), AfterFirst);
      && r.out == Done(IntVal(70))
      && r.heap.log == AfterFirst.log + [CallF1, CallF2, CallF5]
      && r.heap.cache == AfterFirst.cache
  {
    var w := Demo();
    var h2 := AfterFirst.(log := AfterFirst.log + [CallF1, CallF2]);
    SyncF7(AfterFirst);
    AsyncPhaseBelowF7(h2);
    assert h2.(log := h2.log + [CallF5]).log == AfterFirst.log + [CallF1, CallF2, CallF5];
  }

  /** A sync provider may not take an async dependency: `f2` bound to the
      async `f5` is rejected when the dependency is built. */
  lemma SyncOnAsyncRejected()
    ensures MakeNode(Factory(F2), [Binding("f", Dep(M5))]) == Raise(InvalidDependency(SyncWithAsyncDep))
  {
  }

  /** `f2` with nothing bound for `f` is rejected, naming `f`. */
  lemma MissingParamRejected()
    ensures MakeNode(Factory(F2), []) == Raise(InvalidDependency(UndefinedParams({"f"})))
  {
  }

  /** `di[f2]` with `f2` a singleton: `f1` runs, then `f2` on 1, and the
      singleton is left holding 2. */
  lemma CallSingletonF2()
    ensures
      var r := Call(Node(Singleton(F2, 2), [Binding("f", Dep(N1))], false), 0, Demo(), Empty);
      && r.out == Done(IntVal(2))
      && r.heap == Heap(map[Global(2) := IntVal(2)], [CallF1, CallF2], 100)
  {
    var w := Demo();
    var root := Node(Singleton(F2, 2), [Binding("f", Dep(N1))], false);
    var m := Node(Singleton(F2, 2), [Binding("f", Lit(IntVal(1)))], false);
    var h1 := Empty.(log := [CallF1]);
    SyncF1(Empty);
    assert Copy(root) == root && Copy(N1) == N1 && SetKeyword(root, 0, Lit(IntVal(1))) == m;
    assert SyncLoop(root, m, 1, 0, w, h1) == Step(Done(m), h1);
    assert SyncLoop(root, root, 0, 0, w, Empty) == Step(Done(m), h1);
    assert IntArg(m.keywords) == 1;
  }

  /** `call` does not check that the graph is sync: on the async `f7` it
      runs the sync part (`f1`, `f2`), leaves `f5` and `f7` unrun, and
      returns and stores `f7`'s un-awaited coroutine. */
  lemma CallOnAsyncRootStoresCoroutine()
    ensures Call(N7, 0, Demo(), Empty)
         == Step(Done(Coroutine(F7)), Heap(map[Global(7) := Coroutine(F7)], [CallF1, CallF2], 100))
  {
    SyncF7(Empty);
  }

  /** After `acall(f7)` stored 70, a sync `call(f7)` runs `f1` and `f2`,
      then overwrites the stored 70 with `f7`'s un-awaited coroutine; a
      later `acall(f7)` then returns that coroutine, not 70. */
  lemma CallOverwritesCachedAsyncRoot()
    ensures
      var r := Call(N7, 0, Demo(), AfterFirst);
      && r.out == Done(Coroutine(F7))
      && r.heap == Heap(map[Global(7) := Coroutine(F7)], AfterFirst.log + [CallF1, CallF2], 100)
      && ACall(N7, 0, Demo(), r.heap).out == Done(Coroutine(F7))
  {
    var h1 := Heap(map[Global(7) := Coroutine(F7)], AfterFirst.log + [CallF1, CallF2], 100);
    SyncF7(AfterFirst);
    var h2 := h1.(log := h1.log + [CallF1, CallF2]);
    SyncF7(h1);
    AsyncPhaseBelowF7(h2);
  }

  // ----- diamond: `r(a, b)` with `a(s)` and `b(s)` sharing the singleton `s` -----

  const PS := Provider("s", false, [])
  const PA := Provider("a", false, [Param("s", false)])
  const PB := Provider("b", false, [Param("s", false)])
  const PR := Provider("r", false, [Param("a", false), Param("b", false)])

  const NS := Node(Singleton(PS, 9), [], false)
  const NA := Node(Factory(PA), [Binding("s", Dep(NS))], false)
  const NB := Node(Factory(PB), [Binding("s", Dep(NS))], false)
  const NR := Node(Singleton(PR, 10), [Binding("a", Dep(NA)), Binding("b", Dep(NB))], false)

  // `Demo` makes object number t on the t-th invocation.
  const CallS := Invocation(PS, [])
  const CallA := Invocation(PA, [Binding("s", Lit(ObjVal(0)))])
  const CallB := Invocation(PB, [Binding("s", Lit(ObjVal(0)))])
  const CallR := Invocation(PR, [Binding("a", Lit(ObjVal(1))), Binding("b", Lit(ObjVal(2)))])

  /** Phase one on the shared singleton, unset and then set. */
  lemma SyncSharedUnset()
    ensures ResolveSync(NS, false, 0, Demo(), Empty)
         == Step(Done(Lit(ObjVal(0))), Heap(map[Global(9) := ObjVal(0)], [CallS], 100))
  {
  }

  lemma SyncSharedSet(h: State)
    requires h.cache == map[Global(9) := ObjVal(0)]
    ensures ResolveSync(NS, false, 0, Demo(), h) == Step(Done(Lit(ObjVal(0))), h)
  {
  }

  const AfterA: State := Heap(map[Global(9) := ObjVal(0)], [CallS, CallA], 100)
  const AfterB: State := Heap(map[Global(9) := ObjVal(0)], [CallS, CallA, CallB], 100)

  lemma SyncA()
    ensures ResolveSync(NA, false, 0, Demo(), Empty) == Step(Done(Lit(ObjVal(1))), AfterA)
  {
    var w := Demo();
    var h1 := Heap(map[Global(9) := ObjVal(0)], [CallS], 100);
    var m := Node(Factory(PA), [Binding("s", Lit(ObjVal(0)))], false);
    SyncSharedUnset();
    assert Copy(NS) == NS && SetKeyword(NA, 0, Lit(ObjVal(0))) == m;
    assert SyncLoop(NA, m, 1, 0, w, h1) == Step(Done(m), h1);
    assert SyncLoop(NA, NA, 0, 0, w, Empty) == Step(Done(m), h1);
  }

  lemma SyncB()
    ensures ResolveSync(NB, false, 0, Demo(), AfterA) == Step(Done(Lit(ObjVal(2))), AfterB)
  {
    var w := Demo();
    var m := Node(Factory(PB), [Binding("s", Lit(ObjVal(0)))], false);
    SyncSharedSet(AfterA);
    assert Copy(NS) == NS && SetKeyword(NB, 0, Lit(ObjVal(0))) == m;
    assert SyncLoop(NB, m, 1, 0, w, AfterA) == Step(Done(m), AfterA);
    assert SyncLoop(NB, NB, 0, 0, w, AfterA) == Step(Done(m), AfterA);
  }

  /** Resolving `r` runs the shared singleton `s` once: the second path to
      it finds the value the first path stored. */
  lemma DiamondRunsSharedSingletonOnce()
    ensures
      var r := Call(NR, 0, Demo(), Empty);
      && r.out == Done(ObjVal(3))
      && r.heap.log == [CallS, CallA, CallB, CallR]
      && r.heap.cache == map[Global(9) := ObjVal(0), Global(10) := ObjVal(3)]
  {
    SyncRoot();
  }

  const MR := Node(Singleton(PR, 10), [Binding("a", Lit(ObjVal(1))), Binding("b", Lit(ObjVal(2)))], false)

  /** Phase one on `r`: `a` then `b`, the working copy holding both values. */
  lemma SyncRoot()
    ensures ResolveSync(Copy(NR), true, 0, Demo(), Empty) == Step(Done(Dep(MR)), AfterB)
  {
    var w := Demo();
    var m1 := Node(Singleton(PR, 10), [Binding("a", Lit(ObjVal(1))), Binding("b", Dep(NB))], false);
    SyncRootSecond(m1);
    SyncA();
    assert Copy(NR) == NR && Copy(NA) == NA;
    assert SetKeyword(NR, 0, Lit(ObjVal(1))) == m1;
    assert SyncLoop(NR, NR, 0, 0, w, Empty) == Step(Done(MR), AfterB);
  }

  lemma SyncRootSecond(m1: Node)
    requires m1 == Node(Singleton(PR, 10), [Binding("a", Lit(ObjVal(1))), Binding("b", Dep(NB))], false)
    ensures SyncLoop(NR, m1, 1, 0, Demo(), AfterA) == Step(Done(MR), AfterB)
  {
    SyncB();
    assert Copy(NB) == NB && SetKeyword(m1, 1, Lit(ObjVal(2))) == MR;
    assert SyncLoop(NR, MR, 2, 0, Demo(), AfterB) == Step(Done(MR), AfterB);
  }

  // ----- `B(a, f)`: a singleton class on a fresh `A` and `f2` -----

  const NodeA := Node(Factory(ClassA), [], false)
  const NodeB := Node(Singleton(ClassB, 11), [Binding("a", Dep(NodeA)), Binding("f", Dep(N2))], false)
  const MB := Node(Singleton(ClassB, 11), [Binding("a", Lit(ObjVal(0))), Binding("f", Lit(IntVal(2)))], false)

  const CallA0 := Invocation(ClassA, [])
  const BuildB := Invocation(ClassB, [Binding("a", Lit(ObjVal(0))), Binding("f", Lit(IntVal(2)))])
  const AfterClassA: State := Heap(map[], [CallA0], 100)

  lemma SyncClassB(m1: Node)
    requires m1 == Node(Singleton(ClassB, 11), [Binding("a", Lit(ObjVal(0))), Binding("f", Dep(N2))], false)
    ensures SyncLoop(NodeB, m1, 1, 0, Demo(), AfterClassA)
         == Step(Done(MB), AfterClassA.(log := AfterClassA.log + [CallF1, CallF2]))
  {
    var h := AfterClassA.(log := AfterClassA.log + [CallF1, CallF2]);
    SyncF2(AfterClassA);
    assert Copy(N2) == N2 && SetKeyword(m1, 1, Lit(IntVal(2))) == MB;
    assert SyncLoop(NodeB, MB, 2, 0, Demo(), h) == Step(Done(MB), h);
  }

  /** `di[B]`: `B` receives a fresh `A` instance and `f = 2`, the only
      values its provider is called with, and the singleton stores the new
      `B` instance. */
  lemma CallClassB()
    ensures
      var r := Call(NodeB, 0, Demo(), Empty);
      && r.out == Done(ObjVal(3))
      && r.heap.log == [CallA0, CallF1, CallF2, BuildB]
      && r.heap.cache == map[Global(11) := ObjVal(3)]
  {
    var w := Demo();
    var m1 := Node(Singleton(ClassB, 11), [Binding("a", Lit(ObjVal(0))), Binding("f", Dep(N2))], false);
    SyncClassB(m1);
    assert SyncLoop(NodeA, NodeA, 0, 0, w, Empty) == Step(Done(NodeA), Empty);
    assert ResolveSync(NodeA, false, 0, w, Empty) == Step(Done(Lit(ObjVal(0))), AfterClassA);
    assert Copy(NodeB) == NodeB && Copy(NodeA) == NodeA && SetKeyword(NodeB, 0, Lit(ObjVal(0))) == m1;
    assert SyncLoop(NodeB, NodeB, 0, 0, w, Empty) == Step(Done(MB), AfterClassA.(log := [CallA0, CallF1, CallF2]));
  }
}

=== FILE: scopes.dfy ===
/** The lifetime policies of tinydi/scopes.py.

    A scope wraps one provider and decides whether its result is cached.
    Python keeps the cached value inside the scope object (`cached_value`,
    or a `ContextVar` for `Context`); here every cache slot lives in an
    explicit heap that resolution threads through as state, together with
    a log of every provider invocation. Provider behaviour is a `World`:
    a function of the provider, its keyword arguments and the number of
    invocations made so far (so a provider may return a fresh object on
    every call, or raise). */
module Scopes {
  import opened Errors

  /** The Python values that flow through resolution. */
  datatype Val =
    | NoneVal
    | IntVal(i: int)
    | StrVal(s: string)
    | ObjVal(id: nat)              // any other object, e.g. a class instance
    | Coroutine(func: Provider)    // a coroutine object that was never awaited; two coroutines
                                   // of the same provider compare equal here, whereas Python
                                   // makes a distinct object on every call

  /** One parameter of a provider's signature. */
  datatype Param = Param(name: string, hasDefault: bool)

  /** A provider callable: a name, whether it is a coroutine function
      (`iscoroutinefunction`), and its parameters (`inspect.signature`). */
  datatype Provider = Provider(name: string, isAsync: bool, params: seq<Param>)

  /** An execution context, the key of a `ContextVar`'s per-context value. */
  type Ctx = nat

  /** `Factory`, `Singleton` and `Context`; `id` is the identity of the
      Python scope object, which owns its cache slot. */
  datatype Scope =
    | Factory(func: Provider)
    | Singleton(func: Provider, id: nat)
    | Context(func: Provider, id: nat)
  {
    predicate IsAsync() {
      func.isAsync
    }

    /** Only `Singleton` and its subclass `Context` define `get_value`/`set_value`. */
    predicate HasCache() {
      !Factory?
    }
  }

  datatype Slot = Global(id: nat) | PerContext(id: nat, ctx: Ctx)

  datatype Invocation<A> = Invocation(func: Provider, kwargs: A)

  /** All cache slots (an absent slot reads as the `_UNSET` sentinel), the
      log of provider invocations, and the next unused scope identity. */
  datatype Heap<A> = Heap(cache: map<Slot, Val>, log: seq<Invocation<A>>, nextId: nat)

  type World<!A> = (Provider, A, nat) -> Outcome<Val>

  /** The outcome of a step of resolution and the heap after it. */
  datatype Step<A, T> = Step(out: Outcome<T>, heap: Heap<A>)

  /** What `get_value` returns: the `_UNSET` sentinel or a stored value. */
  datatype Read = Unset | Hit(value: Val)

  datatype Kind = FactoryKind | SingletonKind | ContextKind

  function SlotOf(s: Scope, ctx: Ctx): Slot
    requires s.HasCache()
  {
    if s.Singleton? then Global(s.id) else PerContext(s.id, ctx)
  }

  /** Every slot in use belongs to a scope identity handed out already. */
  ghost predicate Valid<A>(h: Heap<A>) {
    forall k :: k in h.cache ==> k.id < h.nextId
  }

  /** Constructing a scope object: a `Singleton` or `Context` gets a new
      identity, hence a slot that nobody has written. */
  function NewScope<A>(kind: Kind, p: Provider, h: Heap<A>): (r: (Scope, Heap<A>))
    requires Valid(h)
    ensures r.0.func == p
    ensures (kind == FactoryKind) == r.0.Factory?
    ensures (kind == SingletonKind) == r.0.Singleton?
    ensures Valid(r.1) && r.1.cache == h.cache && r.1.log == h.log
    ensures r.0.HasCache() ==> forall ctx :: GetValue(r.0, ctx, r.1) == Unset
  {
    match kind
    case FactoryKind => (Factory(p), h)
    case SingletonKind => (Singleton(p, h.nextId), h.(nextId := h.nextId + 1))
    case ContextKind => (Context(p, h.nextId), h.(nextId := h.nextId + 1))
  }

  /** `Singleton.get_value` (the one global slot) and `Context.get_value`
      (the slot of the current context). */
  function GetValue<A>(s: Scope, ctx: Ctx, h: Heap<A>): Read
    requires s.HasCache()
  {
    var k := SlotOf(s, ctx);
    if k in h.cache then Hit(h.cache[k]) else Unset
  }

  /** The effect of `set_value` on a scope that defines it. */
  function Write<A>(s: Scope, v: Val, ctx: Ctx, h: Heap<A>): (h': Heap<A>)
    requires s.HasCache()
    ensures GetValue(s, ctx, h') == Hit(v)
    ensures h'.log == h.log && h'.nextId == h.nextId
    ensures forall k :: k != SlotOf(s, ctx) ==> (k in h'.cache <==> k in h.cache)
    ensures forall k :: k != SlotOf(s, ctx) && k in h.cache ==> h'.cache[k] == h.cache[k]
  {
    h.(cache := h.cache[SlotOf(s, ctx) := v])
  }

  /** `scope.set_value(v)` as `call`/`acall` issue it: a `Factory` has no
      such attribute. */
  function SetValue<A>(s: Scope, v: Val, ctx: Ctx, h: Heap<A>): (r: Outcome<Heap<A>>)
    ensures s.Factory? <==> r == Raise(AttributeError("set_value"))
    ensures r.Done? ==> GetValue(s, ctx, r.value) == Hit(v) && r.value.log == h.log
    // no other slot changes
    ensures r.Done? ==> forall k :: k != SlotOf(s, ctx) ==>
              (k in r.value.cache <==> k in h.cache) && (k in h.cache ==> r.value.cache[k] == h.cache[k])
  {
    if s.Factory? then Raise(AttributeError("set_value")) else Done(Write(s, v, ctx, h))
  }

  /** Running the provider itself: it is logged whether it returns or raises. */
  function Invoke<A>(p: Provider, kwargs: A, w: World<A>, h: Heap<A>): (r: Step<A, Val>)
    ensures r.out == w(p, kwargs, |h.log|)
    ensures r.heap == h.(log := h.log + [Invocation(p, kwargs)])
  {
    Step(w(p, kwargs, |h.log|), h.(log := h.log + [Invocation(p, kwargs)]))
  }

  /** The body shared by `Singleton._call` and `Singleton._acall`: read
      through the cache, and write it only once the provider has returned. */
  function CachedCall<A>(s: Scope, kwargs: A, ctx: Ctx, w: World<A>, h: Heap<A>): (r: Step<A, Val>)
    requires s.HasCache()
    // hit: the stored value, whatever the arguments, and nothing runs
    ensures GetValue(s, ctx, h).Hit? ==> r == Step(Done(GetValue(s, ctx, h).value), h)
    // miss: the provider runs exactly once with exactly these arguments
    ensures GetValue(s, ctx, h).Unset? ==>
      && r.out == w(s.func, kwargs, |h.log|)
      && r.heap.log == h.log + [Invocation(s.func, kwargs)]
      && (r.out.Done? ==> GetValue(s, ctx, r.heap) == Hit(r.out.value))
      && (r.out.Raise? ==> r.heap.cache == h.cache)
    ensures forall k :: k != SlotOf(s, ctx) && k in h.cache ==> k in r.heap.cache && r.heap.cache[k] == h.cache[k]
    ensures forall k :: k != SlotOf(s, ctx) && k in r.heap.cache ==> k in h.cache
    ensures r.heap.nextId == h.nextId
  {
    match GetValue(s, ctx, h)
    case Hit(v) => Step(Done(v), h)
    case Unset =>
      var run := Invoke(s.func, kwargs, w, h);
      match run.out
      case Raise(e) => run
      case Done(v) =>
        var h' := Write(s, v, ctx, run.heap);
        Step(Done(GetValue(s, ctx, h').value), h')
  }

  /** `scope(**kwargs)`, awaited when `awaited` holds. Calling an async
      provider without awaiting yields a coroutine object and runs nothing
      (for `Singleton` that is the coroutine of `_acall`, chosen by
      `__call__` because the provider is async). Awaiting a sync provider's
      result never happens in the engine, hence the precondition. */
  function ScopeCall<A>(s: Scope, kwargs: A, awaited: bool, ctx: Ctx, w: World<A>, h: Heap<A>): (r: Step<A, Val>)
    requires awaited ==> s.IsAsync()
    ensures s.IsAsync() && !awaited ==> r == Step(Done(Coroutine(s.func)), h)
    ensures s.Factory? && (awaited || !s.IsAsync()) ==>
      && r.out == w(s.func, kwargs, |h.log|)
      && r.heap == h.(log := h.log + [Invocation(s.func, kwargs)])
    ensures s.HasCache() && (awaited || !s.IsAsync()) ==> r == CachedCall(s, kwargs, ctx, w, h)
    ensures r.heap.log == h.log || r.heap.log == h.log + [Invocation(s.func, kwargs)]
    ensures r.heap.nextId == h.nextId
  {
    if s.IsAsync() && !awaited then Step(Done(Coroutine(s.func)), h)
    else if s.Factory? then Invoke(s.func, kwargs, w, h)
    else CachedCall(s, kwargs, ctx, w, h)
  }

  /** `Scope.__eq__`: same concrete class and equal provider; the scope's
      identity, and so its cache slot, plays no part. */
  predicate ScopeEquals(a: Scope, b: Scope) {
    && ((a.Factory? && b.Factory?) || (a.Singleton? && b.Singleton?) || (a.Context? && b.Context?))
    && a.func == b.func
  }

  // ----- lemmas -----

  /** Equal scope objects are still distinct caches: writing through one
      leaves the other's slot as it was. */
  lemma EqualScopesKeepSeparateCaches<A>(a: Scope, b: Scope, v: Val, ctx: Ctx, h: Heap<A>)
    requires a.HasCache() && b.HasCache() && a.id != b.id
    ensures ScopeEquals(a, b) <==> (a.Singleton? == b.Singleton? && a.func == b.func)
    ensures GetValue(b, ctx, Write(a, v, ctx, h)) == GetValue(b, ctx, h)
  {
  }

  /** `Scope.__eq__` is an equivalence relation. */
  lemma ScopeEqualsIsEquivalence(a: Scope, b: Scope, c: Scope)
    ensures ScopeEquals(a, a)
    ensures ScopeEquals(a, b) ==> ScopeEquals(b, a)
    ensures ScopeEquals(a, b) && ScopeEquals(b, c) ==> ScopeEquals(a, c)
  {
  }

  /** A `Factory` has no state: two calls in a row run the provider twice,
      each with its own arguments, and may return different values. */
  lemma FactoryRunsOnEveryCall<A>(p: Provider, k1: A, k2: A, ctx: Ctx, w: World<A>, h: Heap<A>)
    requires !p.isAsync
    ensures
      var r1 := ScopeCall(Factory(p), k1, false, ctx, w, h);
      var r2 := ScopeCall(Factory(p), k2, false, ctx, w, r1.heap);
      && r2.heap.log == h.log + [Invocation(p, k1), Invocation(p, k2)]
      && r2.heap.cache == h.cache
      && r1.out == w(p, k1, |h.log|) && r2.out == w(p, k2, |h.log| + 1)
  {
  }

  /** After one successful call of a `Singleton` or `Context`, every later
      call in the same context returns the same value without running the
      provider, whatever arguments it is given. */
  lemma CachedAfterFirstSuccess<A>(s: Scope, k1: A, k2: A, aw1: bool, aw2: bool, ctx: Ctx, w: World<A>, h: Heap<A>)
    requires s.HasCache()
    requires aw1 ==> s.IsAsync()
    requires aw2 ==> s.IsAsync()
    requires aw1 || !s.IsAsync()
    requires aw2 || !s.IsAsync()
    requires ScopeCall(s, k1, aw1, ctx, w, h).out.Done?
    ensures
      var r1 := ScopeCall(s, k1, aw1, ctx, w, h);
      ScopeCall(s, k2, aw2, ctx, w, r1.heap) == Step(r1.out, r1.heap)
  {
  }

  /** A provider that raises leaves the cache unset, so the next call
      retries it. */
  lemma FailureLeavesCacheUnset<A>(s: Scope, kwargs: A, ctx: Ctx, w: World<A>, h: Heap<A>)
    requires s.HasCache() && !s.IsAsync()
    requires GetValue(s, ctx, h) == Unset
    requires w(s.func, kwargs, |h.log|).Raise?
    ensures
      var r := ScopeCall(s, kwargs, false, ctx, w, h);
      && r.out == w(s.func, kwargs, |h.log|)
      && GetValue(s, ctx, r.heap) == Unset
      && ScopeCall(s, kwargs, false, ctx, w, r.heap).heap.log
         == h.log + [Invocation(s.func, kwargs), Invocation(s.func, kwargs)]
  {
  }

  /** `get_value` after `set_value(v)` returns `v`, also for `None`, which
      is a value and not the unset sentinel. */
  lemma GetAfterSet<A>(s: Scope, v: Val, ctx: Ctx, h: Heap<A>)
    requires s.HasCache()
    ensures SetValue(s, v, ctx, h).Done?
    ensures GetValue(s, ctx, SetValue(s, v, ctx, h).value) == Hit(v)
    ensures GetValue(s, ctx, SetValue(s, NoneVal, ctx, h).value) != Unset
  {
  }

  /** A `Singleton` has one slot for every context; a `Context` writes only
      the current context's slot. */
  lemma ContextSlotsAreSeparate<A>(s: Scope, v: Val, c1: Ctx, c2: Ctx, h: Heap<A>)
    requires s.HasCache()
    ensures s.Singleton? ==> GetValue(s, c2, Write(s, v, c1, h)) == Hit(v)
    ensures s.Context? && c1 != c2 ==> GetValue(s, c2, Write(s, v, c1, h)) == GetValue(s, c2, h)
  {
  }

  /** A `Context` caches like a `Singleton` within one context, and runs its
      provider afresh in a context where it is still unset. */
  lemma ContextRunsOncePerContext<A>(s: Scope, k1: A, k2: A, c1: Ctx, c2: Ctx, w: World<A>, h: Heap<A>)
    requires s.Context? && !s.IsAsync() && c1 != c2
    requires GetValue(s, c1, h) == Unset && GetValue(s, c2, h) == Unset
    requires w(s.func, k1, |h.log|).Done?
    ensures
      var r1 := ScopeCall(s, k1, false, c1, w, h);
      var r2 := ScopeCall(s, k2, false, c2, w, r1.heap);
      && r2.out == w(s.func, k2, |h.log| + 1)
      && r2.heap.log == h.log + [Invocation(s.func, k1), Invocation(s.func, k2)]
      && GetValue(s, c1, r2.heap) == Hit(r1.out.value)
  {
  }
}

=== FILE: string_generics.dfy ===
/** dimi/_utils/py314.py: before hints are evaluated, a string forward
    reference inside `Annotated` loses its generic subscript, so that
    `Annotated["Cls[int]", ...]` becomes `Annotated["Cls", ...]`. */
module StringGenerics {
  import opened TypeHints

  /** One entry of the raw hints dict. */
  datatype RawEntry = RawEntry(key: string, value: Hint)

  /** `s.split("[", maxsplit=1)[0]`: everything before the first `[`, or
      all of `s` when it has none. */
  function BeforeBracket(s: string): (r: string)
    ensures r <= s
    ensures '[' !in r
    ensures r == s || s[|r|] == '['
  {
    if |s| == 0 then s
    else if s[0] == '[' then []
    else [s[0]] + BeforeBracket(s[1..])
  }

  /** `s.endswith("]")`. */
  predicate EndsWithBracket(s: string) {
    |s| > 0 && s[|s| - 1] == ']'
  }

  /** The new value the loop assigns to one entry, or the old one. */
  function DropOne(v: Hint): (r: Hint)
    ensures !v.Annotated? ==> r == v
    ensures v.Annotated? && !v.base.Ref? ==> r == v
    ensures v.Annotated? && v.base.Ref? && !EndsWithBracket(v.base.arg) ==> r == v
    ensures v.Annotated? && v.base.Ref? && EndsWithBracket(v.base.arg) ==>
              r == Annotated(Ref(BeforeBracket(v.base.arg)), v.meta, v.rest)
  {
    match v
    case Plain(_) => v
    case Annotated(t, meta, rest) =>
      if t.Ref? && EndsWithBracket(t.arg) then Annotated(Ref(BeforeBracket(t.arg)), meta, rest)
      else v
  }

  /** `drop_string_generics(hints)`: a copy of the hints with every entry
      passed through `DropOne`; the keys and their order stay. */
  function DropStringGenerics(hints: seq<RawEntry>): (r: seq<RawEntry>)
    ensures |r| == |hints|
    ensures forall i :: 0 <= i < |hints| ==> r[i].key == hints[i].key
    ensures forall i :: 0 <= i < |hints| ==> r[i].value == DropOne(hints[i].value)
  {
    seq(|hints|, i requires 0 <= i < |hints| => RawEntry(hints[i].key, DropOne(hints[i].value)))
  }

  /** A name with no `[` is its own prefix. */
  lemma BeforeBracketOfPlainName(s: string)
    requires '[' !in s
    ensures BeforeBracket(s) == s
  {
  }

  /** Rewriting once is enough: the new name has no `[`, so a second pass
      leaves it as it is. */
  lemma DropOneIdempotent(v: Hint)
    ensures DropOne(DropOne(v)) == DropOne(v)
  {
  }

  lemma DropStringGenericsIdempotent(hints: seq<RawEntry>)
    ensures DropStringGenerics(DropStringGenerics(hints)) == DropStringGenerics(hints)
  {
  }

  /** The example of the docstring: `Annotated["Cls[int]", meta]` becomes
      `Annotated["Cls", meta]`. */
  lemma DropsGenericPart(meta: Term)
    ensures DropOne(Annotated(Ref("Cls[int]"), meta, [])) == Annotated(Ref("Cls"), meta, [])
  {
    assert BeforeBracket("Cls[int]") == "Cls";
  }
}

=== FILE: type_hints.dfy ===
/** dimi/_utils.py: which dependency each parameter of a provider declares
    through `Annotated[...]`, and the name lookup with a default that turns
    unknown names into placeholder types. Python objects that appear in
    type hints are abstracted to `Term`; the evaluation of hint strings by
    `typing.get_type_hints` is not modelled, its result (one `Hint` per
    annotated name, in declaration order) is the input. */
module TypeHints {

  /** A Python object as it appears inside a type hint. */
  datatype Term =
    | Cls(name: string)                    // an ordinary class: a `type`
    | Unknown(name: string)                // a placeholder type made for a missing name
    | Alias(origin: Term, args: seq<Term>) // a parameterised generic such as `list[int]`
    | Str(s: string)                       // a `str`
    | Ref(arg: string)                     // a `typing.ForwardRef`
    | Ellipsis                             // `...`
    | Obj(id: nat)                         // any other object
  {
    /** `isinstance(t, type)`. */
    predicate IsType() {
      Cls? || Unknown?
    }
  }

  /** A hint after evaluation: `Annotated[base, meta, *rest]` or anything
      else. `typing.Annotated` refuses fewer than two arguments, so an
      `Annotated` hint always has a base and at least one metadata item. */
  datatype Hint =
    | Annotated(base: Term, meta: Term, rest: seq<Term>)
    | Plain(t: Term)

  /** One entry of the ordered dict that `get_type_hints` returns. */
  datatype HintEntry = HintEntry(arg: string, hint: Hint)

  /** A provider: a function with its hints, or a class whose `__init__`
      may or may not be a plain Python function. */
  datatype Kallable =
    | Function(hints: seq<HintEntry>)
    | Class(initIsFunction: bool, initHints: seq<HintEntry>)

  /** A declared dependency: the argument name and the key to resolve it by
      (a `str` name or the provider object itself). */
  datatype Declared = Declared(arg: string, key: Term)

  datatype Option<T> = None | Some(value: T)

  /** `typing.get_origin` restricted to the terms it gives an answer for. */
  function GetOrigin(t: Term): (r: Option<Term>)
    ensures r.Some? <==> t.Alias?
    ensures r.Some? ==> r.value == t.origin
  {
    if t.Alias? then Some(t.origin) else None
  }

  /** A class `is_subclass` is asked about: the placeholder base or a
      class by name. */
  datatype Target = UnknownBase | Named(name: string)

  /** `issubclass` on the model's classes: a class is a subclass of itself
      and every placeholder type is a subclass of the placeholder base. */
  predicate SubclassOf(a: Term, b: Target)
    requires a.IsType()
  {
    match b
    case UnknownBase => a.Unknown?
    case Named(n) => a.Cls? && a.name == n
  }

  /** `is_subclass(cls, class_or_tuple)`: `issubclass` for types, false for
      anything that is not a type instead of the `TypeError` that
      `issubclass` would raise. */
  function IsSubclass(cls: Term, target: Target): (r: bool)
    ensures !cls.IsType() ==> !r
    ensures cls.IsType() ==> (r <==> SubclassOf(cls, target))
  {
    if cls.IsType() then SubclassOf(cls, target) else false
  }

  /** `_DefaultTypeDict[key]`: the stored value when `key` is present,
      otherwise a fresh placeholder type named `key`. */
  function DefaultLookup(named: map<string, Term>, key: string): (r: Term)
    ensures key in named ==> r == named[key]
    ensures key !in named ==> r == Unknown(key)
  {
    if key in named then named[key] else Unknown(key)
  }

  /** `UnknownType[item]` (`_BaseUnknownType.__class_getitem__`): the
      subscript is dropped and the placeholder's name string remains. */
  function UnknownGetItem(cls: Term, item: Term): (r: Term)
    requires cls.Unknown?
    ensures r.Str? && r.s == cls.name
  {
    Str(cls.name)
  }

  /** What one hint entry of the loop in `get_declared_dependencies`
      yields, if anything. */
  function EntryKey(e: HintEntry): (r: Option<Declared>)
    ensures r.Some? <==> e.arg != "return" && e.hint.Annotated?
    ensures r.Some? ==> r.value.arg == e.arg
    // string metadata wins over any processing of the type
    ensures r.Some? && e.hint.meta.Str? ==> r.value.key == e.hint.meta
    // metadata other than a string or `...` is yielded as it is
    ensures r.Some? && !e.hint.meta.Str? && e.hint.meta != Ellipsis ==> r.value.key == e.hint.meta
    // `...` stands for the annotated type: a placeholder by its name,
    // a generic by its origin, anything else by itself
    ensures r.Some? && e.hint.meta == Ellipsis && e.hint.base.Unknown? ==> r.value.key == Str(e.hint.base.name)
    ensures r.Some? && e.hint.meta == Ellipsis && e.hint.base.Alias? ==> r.value.key == e.hint.base.origin
    ensures r.Some? && e.hint.meta == Ellipsis && !e.hint.base.Unknown? && !e.hint.base.Alias? ==>
              r.value.key == e.hint.base
  {
    if e.arg == "return" || !e.hint.Annotated? then None
    else
      var meta := e.hint.meta;
      if meta.Str? then Some(Declared(e.arg, meta))
      else
        var t := if IsSubclass(e.hint.base, UnknownBase) then Str(e.hint.base.name) else e.hint.base;
        var key := if meta == Ellipsis then (match GetOrigin(t) case Some(o) => o case None => t) else meta;
        Some(Declared(e.arg, key))
  }

  /** The loop of `get_declared_dependencies` over the hints, in order. */
  function Collect(hints: seq<HintEntry>): (r: seq<Declared>)
    ensures |r| <= |hints|
    ensures forall d :: d in r ==> exists i :: 0 <= i < |hints| && EntryKey(hints[i]) == Some(d)
    ensures forall i :: 0 <= i < |hints| && EntryKey(hints[i]).Some? ==> EntryKey(hints[i]).value in r
  {
    if |hints| == 0 then []
    else
      var tail := Collect(hints[1..]);
      assert forall i :: 1 <= i < |hints| ==> hints[i] == hints[1..][i - 1];
      match EntryKey(hints[0])
      case None => tail
      case Some(d) => [d] + tail
  }

  /** `get_declared_dependencies(kallable, named_deps)`, given the hints
      `get_type_hints` produced with the defaulting lookup. A class whose
      `__init__` is not a plain function declares nothing. */
  function DeclaredDependencies(k: Kallable): (r: seq<Declared>)
    ensures k.Class? && !k.initIsFunction ==> r == []
    ensures k.Function? ==> r == Collect(k.hints)
    ensures k.Class? && k.initIsFunction ==> r == Collect(k.initHints)
  {
    match k
    case Function(hints) => Collect(hints)
    case Class(isFn, hints) => if isFn then Collect(hints) else []
  }

  /** `is_subclass(t, _BaseUnknownType)` holds exactly for the placeholder
      types, and never for a string, alias, forward reference or `...`. */
  lemma PlaceholderTest(t: Term)
    ensures IsSubclass(t, UnknownBase) <==> t.Unknown?
  {
  }

  /** A class declares what its `__init__` declares, read as a function;
      a class whose `__init__` is inherited from a builtin declares nothing,
      whatever hints it carries. */
  lemma ClassDeclaresAsItsInit(hints: seq<HintEntry>)
    ensures DeclaredDependencies(Class(true, hints)) == DeclaredDependencies(Function(hints))
    ensures DeclaredDependencies(Class(false, hints)) == []
  {
  }

  /** The yielded pairs follow the order of the hints: collecting a
      concatenation is the concatenation of the collections. */
  lemma {:induction false} CollectKeepsOrder(a: seq<HintEntry>, b: seq<HintEntry>)
    ensures Collect(a + b) == Collect(a) + Collect(b)
  {
    if |a| == 0 {
      assert a + b == b;
    } else {
      assert (a + b)[1..] == a[1..] + b;
      CollectKeepsOrder(a[1..], b);
    }
  }

  /** The `return` hint never yields a dependency. */
  lemma ReturnNeverYielded(hints: seq<HintEntry>)
    ensures forall d :: d in Collect(hints) ==> d.arg != "return"
  {
  }

  /** One hint entry yields exactly what `EntryKey` says; together with
      `CollectKeepsOrder` this pins down the whole output. */
  lemma CollectOne(e: HintEntry)
    ensures Collect([e]) == if EntryKey(e).Some? then [EntryKey(e).value] else []
  {
  }

  /** A key produced from `...` is never a placeholder type: a placeholder
      base is replaced by its name. */
  lemma EllipsisNeverYieldsPlaceholder(e: HintEntry)
    requires e.hint.Annotated? && e.hint.meta == Ellipsis
    requires e.hint.base.Alias? ==> !e.hint.base.origin.Unknown?
    ensures EntryKey(e).Some? ==> !EntryKey(e).value.key.Unknown?
  {
  }

  /** A name missing from `named_deps` evaluates, subscripted or not, to
      something that resolves by the name: `Missing[int]` becomes the
      string "Missing". */
  lemma MissingNameSubscripted(named: map<string, Term>, key: string, item: Term)
    requires key !in named
    ensures DefaultLookup(named, key).Unknown?
    ensures UnknownGetItem(DefaultLookup(named, key), item) == Str(key)
  {
  }

  /** `Annotated[Missing, ...]` with `Missing` unknown declares the
      dependency by the string "Missing", the same key a string annotation
      would give. */
  lemma EllipsisOnMissingNameIsByName(named: map<string, Term>, arg: string, key: string, rest: seq<Term>)
    requires key !in named && arg != "return"
    ensures EntryKey(HintEntry(arg, Annotated(DefaultLookup(named, key), Ellipsis, rest)))
         == EntryKey(HintEntry(arg, Annotated(Cls(key), Str(key), rest)))
  {
  }
}
